=== FILE: README.md ===
# TransValeur coaching chat: a verified model of its decision logic

TransValeur is a French-language coaching chat. A user uploads a text
transcript and then talks to an assistant that walks them through a
configured sequence of coaching steps. Most of the application is React view
code and thin wrappers around the language-model provider, a database and the
browser's local storage. This project models the sequential logic spread
through it as pure Dafny functions over immutable datatypes, and proves
properties about them:

- **Coaching progress** (`coaching.dfy`, module `Coaching`). This is the
  tracker of the current step, the completed steps and the completion flag,
  together with the `canProceedToNext` gate. It is driven by `completeStep`,
  `moveToNextStep` and `resetProgress` over the configured step order.
- **Assistant client** (`ratelimiter.dfy`, `sanitize.dfy`, `aiclient.dfy`).
  This covers the token-bucket limiter with an explicit clock, the input
  sanitizer and the bounded retry loop with exponential backoff. The loop
  runs over a given sequence of provider outcomes. The client also maps the
  `responseLength` setting to `max_tokens`.
- **Transcript cleaning** (`transcript.dfy`). This covers removal of
  consecutive duplicate lines with its count, the final trim and the
  statistics record.
- **Step configuration** (`stepeditor.dfy`). These are the settings dialog's
  edits of `coachingSteps` and `stepOrder`: moving a step, adding a step,
  adding and removing follow-up questions, and deleting a step.
- **Chat history** (`chathistory.dfy`). Local storage is a sequence of
  sessions; save replaces an existing session or prepends a new one, and the
  history supports load and delete.
- **Chat screen helpers** (`chatui.dfy`):
  - upload validation and the transcript title;
  - the send guard and the handling of the step-completion marker;
  - the feedback buttons;
  - the `fav:` history search;
  - the next-step button.
- **Settings** (`settings.dfy`). These are the default settings and the
  partial-override merge.

Supporting modules:
- `types.dfy` mirrors the records of `src/types/types.ts`.
- `wrappers.dfy` holds `Option`.
- `seqs.dfy` holds `indexOf`, `findIndex` and `filter`.
- `strings.dfy` writes out the JavaScript string built-ins the code uses:
  - the `\s` class and `trim`;
  - `indexOf`, `includes` and `startsWith`;
  - `replace` with a string pattern;
  - `toLowerCase`;
  - `Number.prototype.toString`.

Time is a parameter everywhere. The clock readings `Date.now()` and
`new Date()` are integers passed in by the caller. The provider's answers
are a sequence given in advance. The backoff waits are returned rather than
slept.

Two behaviours of the code worth noting:
- **Retry waits.** With `n` attempts all failing, the code waits only after
  failures 1 to `n - 1`. Each wait is `1000 * 2^k` ms, so the total is
  `1000 * (2^n - 2)` ms (`AIService.TotalWait`).
- **The next-step gate and late replies.** The chat screen reports a
  completion by calling `completeStep(progress.currentStep)` from the send
  handler. The handler, `completeStep` and the `progress` that
  `completeStep` compares with all come from the render that sent the
  message, so the comparison always succeeds. A marked reply that arrives
  after the user has moved on opens the gate on the later step
  (`Coaching.CompleteStepFrom`, `Coaching.LateMarkerOpensLaterStep`). This
  is logged under "## Findings". The event model (`Coaching.Run`) has both
  signals: the corrected `Coaching.CompleteStep`, which compares with the
  live tracker, and the chat screen's own `Coaching.CompleteStepFrom`. The
  invariants hold for runs that mix them.

## Model

| member | source | states |
|---|---|---|
| Coaching.FirstStep | src/contexts/CoachingContext.tsx:18 | the first configured step, or `custom_step_0` when the order is empty or its first entry is the empty string |
| Coaching.Initial | src/contexts/CoachingContext.tsx:17-23 | a session starts at the first step with no completed steps, not complete, and the gate closed |
| Coaching.ResetProgress | src/contexts/CoachingContext.tsx:52-59 | back to the first step (or `custom_step_0`), nothing completed, not complete, gate closed, whatever the tracker held |
| Coaching.ResetDiscardsHistory | src/contexts/CoachingContext.tsx:52-59 | a reset anywhere in a run discards everything before it: the rest of the run behaves as in a fresh session |
| Coaching.CompleteStepFrom | src/contexts/CoachingContext.tsx:46-50 | `completeStep` as the chat screen calls it: progress never changes, and the live gate is open afterwards iff it was open or the step is the current step of the render the handler came from |
| Coaching.LateMarkerOpensLaterStep | src/components/ChatInterface.tsx:249-251 | with the order [a, b], a completion for `a` arriving after the user advanced to `b` opens the gate at `b`, while the corrected comparison leaves it closed |
| Coaching.CompleteStep | src/contexts/CoachingContext.tsx:46-50 | the corrected completion, compared with the live tracker: progress never changes; the gate is open afterwards iff it was open or the step is the current one; a signal for another step changes nothing; when the render is the live state it is the chat screen's call |
| Coaching.MoveToNextStep | src/contexts/CoachingContext.tsx:25-44 | with the gate closed nothing changes. Otherwise the old current step is appended to the completed steps. When a step follows, it becomes current and the gate closes. At the end of the order the tracker is marked complete, the current step stays and the gate stays open |
| Coaching.BlockedAdvancesAreNoOps | src/contexts/CoachingContext.tsx:25-26 | any number of advances with the gate closed leave the tracker unchanged |
| Coaching.MissingStepRestarts | src/contexts/CoachingContext.tsx:28-42 | a current step missing from the order (index -1) advances to the first step, or marks completion when the order is empty |
| Coaching.TerminalAdvanceRepeats | src/contexts/CoachingContext.tsx:37-43 | at the last step an advance marks completion, and a second advance appends the last step again |
| Coaching.InitialConsistent | src/contexts/CoachingContext.tsx:17-23 | for a non-empty order without repeats, the initial tracker satisfies the progress invariant |
| Coaching.StepPreservesConsistent | src/contexts/CoachingContext.tsx:25-59 | every completion, advance or reset preserves the invariant: the completed steps are the prefix of the order before the current step, or the whole order followed only by repeats of the last step once complete |
| Coaching.RunPreservesConsistent | src/contexts/CoachingContext.tsx:25-59 | for an order without repeats, after any sequence of events the invariant holds and the current step is one of the configured steps; the events include the chat screen's completion checked against an earlier render, so the invariant holds for the code as written too |
| Coaching.RunKeepsStepConfigured | src/contexts/CoachingContext.tsx:25-59 | for any non-empty order with a usable first entry, repeats included, the current step stays one of the configured steps through any run |
| Coaching.RepeatedStepNeverCompletes | src/contexts/CoachingContext.tsx:25-43 | an order that lists some step a second time is never completed: every advance lands on a step whose first occurrence precedes the repeat |
| Coaching.TwiceListedStepCycles | src/contexts/CoachingContext.tsx:28-36 | with the order [a, a], an advance from `a` returns to `a`, records `a` once more and closes the gate |
| Coaching.ThreeStepWalkThrough | src/contexts/CoachingContext.tsx:25-50 | for the order [A, B, C], completing and advancing three times ends at C with [A, B, C] completed and the sequence complete |
| RateLimiter.NewBucket | src/services/aiService.ts:8-11 | the bucket starts full (10 tokens) with its refill time at load |
| RateLimiter.FloorDiv | src/services/aiService.ts:16 | `Math.floor(a / d)` for a positive divisor, negative elapsed time included |
| RateLimiter.Refilled | src/services/aiService.ts:14-16 | the refilled count is `min(10, tokens + floor(elapsed / 1000))`, never above 10, and unchanged by a gap under a second |
| RateLimiter.CheckLimit | src/services/aiService.ts:13-23 | the refill time becomes `now` even on refusal; a check fails iff the refilled count is at most 0; a pass takes exactly one token; tokens stay below 10 and never go negative |
| RateLimiter.BurstAtOneInstant | src/services/aiService.ts:13-22 | `n` checks at one instant succeed `min(n, max(0, refilled))` times |
| RateLimiter.TenThenRefused | src/services/aiService.ts:9-22 | from the bucket as loaded, 10 checks at the load instant pass and an 11th is refused |
| RateLimiter.OneTokenPerSecond | src/services/aiService.ts:11-16 | from an empty bucket, checks at one instant `d` ms later succeed `min(n, 10, floor(d / 1000))` times |
| RateLimiter.CloseChecksNeverRefill | src/services/aiService.ts:14-17 | when each check follows the previous one by under a second, no check refills, however much time passes in total, so the successes are bounded by the initial tokens |
| Sanitizer.StripTags | src/services/aiService.ts:28 | no `<` of the result is followed anywhere later by a `>`, so no tag remains; the text never grows; text without `<` or without `>` is left as it is; with StripsPlainPrefix and StripsLeadingTag this fixes the result on every input |
| Sanitizer.StripsPlainPrefix | src/services/aiService.ts:28 | text without `<` in front of the rest is kept unchanged, so only tags are removed |
| Sanitizer.StripsLeadingTag | src/services/aiService.ts:28 | a leading `<...>` tag is removed whole, its contents included |
| Sanitizer.SanitizeDropsTag | src/services/aiService.ts:26-31 | a tag in front of a clean word is dropped with its contents, so `<b>hi` sanitizes to `hi`, not `bhi` |
| Sanitizer.KeepAllowed | src/services/aiService.ts:29 | only ASCII letters, digits, `_`, white space and `.,!?-` remain; text made only of those is unchanged |
| Sanitizer.KeepAllowedConcat | src/services/aiService.ts:29 | the character filter distributes over concatenation |
| Sanitizer.KeepAllowedSingle | src/services/aiService.ts:29 | a single character is kept iff it is allowed |
| Sanitizer.Sanitize | src/services/aiService.ts:26-31 | the output holds only allowed characters, has no white space at either end, and is no longer than the input |
| Sanitizer.TrimKeepsCharacters | src/services/aiService.ts:30 | every character of a trimmed text occurs in the text it came from |
| Sanitizer.SanitizeFixesClean | src/services/aiService.ts:26-31 | a trimmed text made only of allowed characters is its own sanitization |
| Sanitizer.SanitizeIdempotent | src/services/aiService.ts:26-31 | sanitizing twice equals sanitizing once |
| Sanitizer.DropsDisallowed | src/services/aiService.ts:28-29 | no disallowed character, such as an accented letter, `<` or `>`, survives sanitization |
| AIService.ReplyText | src/services/aiService.ts:122 | the first choice's content, or `Aucune réponse générée` when it is missing or empty; never empty |
| AIService.MaxTokens | src/services/aiService.ts:117-118 | `max_tokens` is 300 iff the length is `concise`, 1000 iff `detailed`, and 600 otherwise |
| AIService.Waits | src/services/aiService.ts:132 | the first wait is 2000 ms and each later wait is twice the one before |
| AIService.RetryLoop | src/services/aiService.ts:52-138 | The first successful attempt returns its reply text and all earlier attempts failed. A missing API key fails every attempt. With every attempt failing, exactly `maxRetries` attempts are made, with the waits between them, and the loop ends in ExhaustedRetries. A non-positive `maxRetries` gives the unexpected error with no attempt |
| AIService.TotalWait | src/services/aiService.ts:124-134 | the waits before the terminal error add up to `1000 * (2^n - 2)` ms |
| AIService.BuildRequest | src/services/aiService.ts:49-50 | both texts are sent sanitized, with the `max_tokens` for the length setting |
| AIService.GetAIResponse | src/services/aiService.ts:41-138 | The limiter is consulted exactly once per call. A refusal ends the call with no request built and no attempt. An allowed call sends the sanitized request and behaves as the retry loop: an answer iff some attempt succeeded, every earlier attempt failed, otherwise ExhaustedRetries after exactly `maxRetries` tries, or the unexpected error when `maxRetries` is not positive |
| AIService.AllAttemptsFail | src/services/aiService.ts:52-135 | `n` failing attempts: exactly `n` tries, ExhaustedRetries, and `1000 * (2^n - 2)` ms waited |
| TranscriptProcessor.Split | src/services/transcriptProcessor.ts:18 | `split('\n')` yields at least one piece and no piece holds a newline |
| TranscriptProcessor.JoinSplit | src/services/transcriptProcessor.ts:18-25 | joining the split pieces with newlines gives the text back |
| TranscriptProcessor.SplitJoin | src/services/transcriptProcessor.ts:18-25 | splitting a join of newline-free lines gives the lines back |
| TranscriptProcessor.Dedup | src/services/transcriptProcessor.ts:18-25 | the fold never adds lines |
| TranscriptProcessor.DedupLast | src/services/transcriptProcessor.ts:18-25 | the last input line is always kept, and the kept lines plus the counted repeats make up all input lines |
| TranscriptProcessor.DedupHasNoAdjacentRepeats | src/services/transcriptProcessor.ts:18-25 | no two adjacent kept lines are equal |
| TranscriptProcessor.DedupKeepsCleanInput | src/services/transcriptProcessor.ts:18-25 | input without equal adjacent lines comes back unchanged with a count of 0 |
| TranscriptProcessor.DedupIdempotent | src/services/transcriptProcessor.ts:18-25 | deduplicating twice equals deduplicating once |
| TranscriptProcessor.DedupIsSubsequence | src/services/transcriptProcessor.ts:18-25 | the kept lines are the input lines at increasing positions, the first line always among them |
| TranscriptProcessor.DedupText | src/services/transcriptProcessor.ts:17-25 | the lines of the returned text are exactly the deduplicated input lines; `duplicatesRemoved` counts the adjacent repeats, which is the number of input lines minus the number of output lines |
| TranscriptProcessor.DedupTextKeepsCleanText | src/services/transcriptProcessor.ts:18-25 | text without equal adjacent lines survives the split, fold and join unchanged, with 0 removed |
| TranscriptProcessor.DedupTextIdempotent | src/services/transcriptProcessor.ts:18-25 | a second pass removes nothing and changes nothing |
| TranscriptProcessor.CleanTranscript | src/services/transcriptProcessor.ts:11-51 | `originalLength` is the input length, `duplicatesRemoved` the adjacent repeats, `errorsFixed` the matches of the cleanup passes; `cleanedLength` is the length of the passes' output on the deduplicated text, and the content is that output with surrounding white space trimmed |
| TranscriptProcessor.CleanTextRoundTrip | src/services/transcriptProcessor.ts:11-51 | a trimmed text with no repeats that the passes leave alone is returned as is, with stats (length, length, 0, 0) |
| StepEditor.Swap | src/components/SettingsModal.tsx:42-43 | exactly the two positions are exchanged; the multiset of ids is unchanged |
| StepEditor.MoveStep | src/components/SettingsModal.tsx:38-49 | a neighbour off either end leaves the settings unchanged; otherwise the step and its neighbour swap, and nothing else in the settings changes |
| StepEditor.MoveStepUndo | src/components/SettingsModal.tsx:42-43 | the same move twice, or a move followed by the opposite move of the moved step, restores the order |
| StepEditor.StepIdOfInjective | src/components/SettingsModal.tsx:57 | different numbers give different `custom_step_<n>` identifiers |
| StepEditor.AddNewStep | src/components/SettingsModal.tsx:56-74 | a blank step (empty title and description, one empty question) is stored under `custom_step_<number of keys>` and that id is appended to the order |
| StepEditor.NewStepIdFreshWhenDense | src/components/SettingsModal.tsx:57 | when the keys are `custom_step_0` to `custom_step_<n-1>`, the new id is not yet a key |
| StepEditor.DeleteFirstOfTwo | src/components/SettingsModal.tsx:111-122 | deleting step 0 of steps 0 and 1 leaves only step 1, in map and order |
| StepEditor.AddAfterDeleteOverwrites | src/components/SettingsModal.tsx:56-74 | after that deletion, adding a step overwrites step 1 with a blank step and lists it twice in the order |
| StepEditor.OverwrittenOrderNeverCompletes | src/components/SettingsModal.tsx:56-74 | a coaching session on the order that overwrite leaves never completes, whatever the user does |
| StepEditor.FirstAddOnDefaults | src/components/SettingsModal.tsx:56-74 | on the default settings, which configure no step, the first added step is `custom_step_0` |
| StepEditor.FirstFreeFrom | src/components/SettingsModal.tsx:57 | the first numbered id from `k` on that no key uses exists and is free |
| StepEditor.FreshStepId | src/components/SettingsModal.tsx:57 | the corrected id is never an existing key and is numbered at most the key count |
| StepEditor.FreshStepIdAgreesWhenDense | src/components/SettingsModal.tsx:57 | with densely numbered keys the corrected id is the dialog's own |
| StepEditor.AddNewStepFresh | src/components/SettingsModal.tsx:56-74 | the corrected add stores exactly one new blank step, keeps every existing step and appends the new id |
| StepEditor.AddNewStepFreshAgreesWhenDense | src/components/SettingsModal.tsx:56-74 | with densely numbered keys the corrected add equals the dialog's add |
| StepEditor.AddQuestionToStep | src/components/SettingsModal.tsx:76-93 | a missing step or one with `maxFollowUps + 1` questions is left alone; otherwise exactly one question is appended, so the count never rises above `maxFollowUps + 1` |
| StepEditor.RemoveAt | src/components/SettingsModal.tsx:105 | the question at the index is dropped and the others keep their order; an index out of range changes nothing |
| StepEditor.RemoveQuestionFromStep | src/components/SettingsModal.tsx:95-109 | a missing step or one with a single question is left alone; otherwise only that index is dropped, so a step always keeps one question |
| StepEditor.QuestionEditsAreLocal | src/components/SettingsModal.tsx:83-108 | question edits change only the targeted step's questions; other steps, its title and description, and the order are untouched |
| StepEditor.DeleteStep | src/components/SettingsModal.tsx:111-122 | the key leaves the map and every occurrence leaves the order; the other steps keep their data and their occurrences |
| StepEditor.DeleteStepKeepsOrder | src/components/SettingsModal.tsx:119 | deletion distributes over any split of the order, so the remaining steps keep their relative order |
| ChatHistory.Preview | src/services/chatHistoryService.ts:23 | the last message's content, or the empty string with no messages |
| ChatHistory.SessionOf | src/services/chatHistoryService.ts:19-27 | the session takes id, title and date from the transcript |
| ChatHistory.StoredFavorite | src/services/chatHistoryService.ts:29-35 | the stored favourite flag is the argument, `false` by default: the keep-old branch is never reached |
| ChatHistory.SaveChatToHistory | src/services/chatHistoryService.ts:15-42 | an existing id is replaced at its index with the length unchanged; a new id is prepended and the length grows by one |
| ChatHistory.LoadChatSession | src/services/chatHistoryService.ts:62-65 | absent iff no session has the id; otherwise the first session with it |
| ChatHistory.DeleteChatSession | src/services/chatHistoryService.ts:67-71 | no session with the id remains, and every other session keeps its multiplicity |
| ChatHistory.DeleteKeepsOrder | src/services/chatHistoryService.ts:69 | deletion distributes over concatenation, so survivors keep their order |
| ChatHistory.LoadAfterDelete | src/services/chatHistoryService.ts:62-71 | loading a deleted id finds nothing |
| ChatHistory.LoadAfterSave | src/services/chatHistoryService.ts:15-65 | loading a just-saved id returns the saved session |
| ChatHistory.SavePreservesUniqueIds | src/services/chatHistoryService.ts:17-39 | unique ids stay unique across a save |
| AISettings.Defaults | src/contexts/AISettingsContext.tsx:27-36 | tutoiement and bold words on, 2 follow-ups, balanced length, the default instructions and tonality, no steps and an empty order |
| AISettings.UpdateSettings | src/contexts/AISettingsContext.tsx:38-40 | every field present in the patch takes the given value, and every absent field keeps its value |
| AISettings.EmptyPatchIsIdentity | src/contexts/AISettingsContext.tsx:38-40 | merging an empty patch changes nothing |
| AISettings.UpdateIdempotent | src/contexts/AISettingsContext.tsx:38-40 | merging the same patch twice equals merging it once |
| AISettings.FullPatchReplaces | src/components/SettingsModal.tsx:51-54 | saving the dialog's complete working copy replaces the settings with it |
| AISettings.AnyFollowUpCountAccepted | src/contexts/AISettingsContext.tsx:38-40 | the merge accepts any `maxFollowUps`, with no range check |
| ChatInterface.ValidateFile | src/components/ChatInterface.tsx:103-121 | a size error iff the size exceeds 5·1024·1024 bytes; otherwise a format error iff the type is not `text/plain`; otherwise no error |
| ChatInterface.FiveMebibytesAccepted | src/components/ChatInterface.tsx:104-106 | exactly 5 MiB passes and one byte more is refused |
| ChatInterface.ExtensionAtLastDot | src/components/ChatInterface.tsx:152 | a name has an extension iff its last dot starts one |
| ChatInterface.UploadTitle | src/components/ChatInterface.tsx:152 | the title is the name without its final `.ext`, where the extension is non-empty and has no dot or slash; a name without an extension is unchanged |
| ChatInterface.TitleDropsExtension | src/components/ChatInterface.tsx:152 | whichever dot starts the extension, the title is everything before it, e.g. `a.b.txt` gives `a.b` |
| ChatInterface.TitleExamples | src/components/ChatInterface.tsx:152 | `notes.txt` gives `notes` and `a.b.txt` gives `a.b` |
| ChatInterface.DisplayText | src/components/ChatInterface.tsx:255 | the shown reply is trimmed, with the first marker cut out when there is one, and otherwise is the trimmed reply |
| ChatInterface.DoubledMarkerLeavesOne | src/components/ChatInterface.tsx:255 | only the first marker is removed: a doubled marker shows one |
| ChatInterface.SendMessage | src/components/ChatInterface.tsx:206-273 | a blocked send (blank input, no transcript, request in flight) changes nothing. Otherwise the trimmed user message is appended, the input clears, loading ends, and the assistant is asked iff the current step has data, adding one reply message |
| ChatInterface.SendReportsCompletion | src/components/ChatInterface.tsx:249-251 | the current step is reported complete iff the assistant was asked and its reply contains `[ÉTAPE_COMPLÉTÉE]` |
| ChatInterface.SendShowsReply | src/components/ChatInterface.tsx:253-269 | the assistant message shows the reply with its marker removed and trimmed, or the apology when the service failed |
| ChatInterface.SendIdsDiffer | src/components/ChatInterface.tsx:210 | the user message and the reply get different ids |
| ChatInterface.MarkerOpensGate | src/components/ChatInterface.tsx:249-251 | a marked reply received while the tracker is at the step it was sent for opens the next-step gate under the corrected comparison; a step is reported iff the reply is an answer with the marker |
| ChatInterface.MarkedReplyOpensLiveGate | src/components/ChatInterface.tsx:249-251 | as written, a marked reply opens the live gate wherever the tracker has moved by then, and changes nothing else |
| ChatInterface.SetFeedback | src/components/ChatInterface.tsx:299-301 | every message with the id gets the vote; every other message is unchanged |
| ChatInterface.SaveFeedback | src/components/ChatInterface.tsx:298-301 | a save sets the vote on the message and runs the save |
| ChatInterface.HandleFeedback | src/components/ChatInterface.tsx:275-296 | repeating the message's vote resets it to none without saving; a new negative vote only opens the dialog; a new positive vote is set and saved |
| ChatInterface.PositiveTwiceClears | src/components/ChatInterface.tsx:275-296 | thumbs-up twice saves once and leaves the message without a vote |
| ChatInterface.SubmitDetailedFeedback | src/components/ChatInterface.tsx:333-338 | submitting the dialog saves a negative vote for its message and forgets the message; with no message, or an empty id, which is falsy, it does nothing |
| ChatInterface.NegativeVoteWaitsForDialog | src/components/ChatInterface.tsx:290-338 | a new thumbs-down changes nothing until the dialog is submitted, which records it, unless the id is empty |
| ChatInterface.FilterHistory | src/components/ChatInterface.tsx:462-481 | exactly the matching sessions are kept, each with its multiplicity |
| ChatInterface.FilterHistoryKeepsOrder | src/components/ChatInterface.tsx:462-481 | filtering distributes over any split of the history, so kept sessions stay in the sidebar's order |
| ChatInterface.BlankQueryKeepsAll | src/components/ChatInterface.tsx:462-481 | an empty or blank query keeps every session, in order |
| ChatInterface.FavPrefixAloneKeepsFavorites | src/components/ChatInterface.tsx:466-473 | `fav:` alone keeps exactly the favourites |
| ChatInterface.QueryCases | src/components/ChatInterface.tsx:462-481 | `fav:<t>` keeps the favourites whose lower-cased title contains `t`; any other query keeps the titles containing it |
| ChatInterface.NextStepButtonAdvances | src/components/ChatInterface.tsx:804-805 | when the button is offered, clicking it records the current step as completed; with the gate closed it is absent and an advance would change nothing |

## Left out

- Rendering, hooks and effects are not modelled. This covers the layout of the chat screen and the settings dialog, the header's scroll hiding, the feedback dialog and the typewriter animation. They are presentation only.
- The progress bar component is not modelled. It is presentation, and its width is a floating-point percentage.
- The provider call and the `setTimeout` sleeps are not modelled. They are network and timer calls, so the provider's answer to each attempt is a given sequence and the waits are returned.
- The text of the system prompt is left out. It is string templating, and only the request's sanitized texts and `max_tokens` are modelled.
- The step context that `sendMessage` adds to the message is left out for the same reason. So is the fact that the untrimmed input goes to the assistant.
- Clock readings are parameters. `Date.now()` and `new Date()` are integers given by the caller.
- The regular-expression cleanup passes of `cleanTranscript` are one opaque parameter. It returns the rewritten text and the number of matches. The backreference, multiline anchors and `\s{2,}` depend on the regex engine.
- The database service, the database API route and the data-collection stub are not modelled. They are I/O wrappers and logging.
- Local storage, JSON serialization and date revival in the history store are not modelled. The stored history is a sequence of sessions.
- The orchestration of `handleTranscriptUpload` is not modelled: reading the file, the state setters and the saves. Only its validation and its title computation are.
- AISettings.UpdateSettings: a patch whose field is present but explicitly `undefined` is not modelled; a field is either absent or given a value.
- Strings.ToLower: lower-cases ASCII, the Latin-1 capitals, and Œ and Ÿ; other capitals, such as Greek, Cyrillic or the rest of Latin Extended-A, are left as they are, because full Unicode case mapping needs tables outside the model.
- TranscriptProcessor.CleanTranscript: lengths count characters (code points), not UTF-16 code units as `String.prototype.length` does.
- Coaching.RunPreservesConsistent: the step order is fixed during a run; edits of the order while a session is in progress are not modelled. The full prefix invariant is proved only for orders without repeats. Orders with repeats occur after the id collision under "## Findings". For them only two things are proved: the current step stays configured (`Coaching.RunKeepsStepConfigured`), and the session never completes (`Coaching.RepeatedStepNeverCompletes`).
- AIService.RetryLoop: the sleeps themselves are not modelled, so the property that waiting happens before the next attempt is stated only as the list of waits.

## Findings

| source | as written | input that shows it | evidently intended | confidence | as-written member | corrected member |
|---|---|---|---|---|---|---|
| src/components/SettingsModal.tsx:57 | the new step id is `custom_step_<number of keys>` | steps `custom_step_0` and `custom_step_1`; delete `custom_step_0`; add a step: the new id is `custom_step_1`, which overwrites that step with a blank one and lists it twice in the order, on which a coaching session never completes | a new step gets an id that no existing step uses | not executed | StepEditor.AddAfterDeleteOverwrites | StepEditor.AddNewStepFresh |
| src/components/ChatInterface.tsx:250 | the completion check compares the reported step with the `progress` of the render that sent the message, which is the reported step itself | order [A, B] with the gate open at A; send a message; click "Passer à l'étape suivante" while the reply is pending, which moves to B and closes the gate; the reply carries `[ÉTAPE_COMPLÉTÉE]`: the gate opens at B, which never received a marker | a completion counts only for the step the tracker is at when the reply arrives | medium; not executed | Coaching.LateMarkerOpensLaterStep | Coaching.CompleteStep |

`StepEditor.AddNewStepFresh` numbers the new step with the lowest free
`custom_step_<k>`. Its contract proves that the new id is fresh and that
every existing step is kept. `StepEditor.AddNewStepFreshAgreesWhenDense`
proves it coincides with the dialog's add whenever the keys were only ever
added. `StepEditor.OverwrittenOrderNeverCompletes` shows the consequence of
the collision for a coaching session.

`Coaching.CompleteStep` compares the reported step with the live tracker,
so a late signal for a step the user has left changes nothing. Its contract
states that it equals `Coaching.CompleteStepFrom` whenever the render
matches the live state, which is the only difference between the two.
`Coaching.Run` accepts both signals, and the invariants hold for runs that
mix them, since neither changes the progress.

=== FILE: aiclient.dfy ===
/** `getAIResponse`: one rate-limit check, sanitizing of both inputs, then
    up to `maxRetries` attempts with exponential backoff. The provider call
    and the sleeps are not modelled: the provider's answer to each attempt
    is given as a sequence, and the waits are returned instead of slept. */
module AIService {
  import opened Wrappers
  import opened RateLimiter
  import opened Sanitizer

  /** What the provider returns for one call: a completion whose first
      choice has the given content (`None` for an empty choice list or a
      missing content), or an error. */
  datatype ProviderReply = Completion(content: Option<string>) | ProviderError

  datatype AIError =
    | RateLimitExceeded   // the limiter refused the call; nothing was attempted
    | ExhaustedRetries    // every attempt failed
    | UnexpectedError     // the loop never ran (maxRetries <= 0)

  datatype AIResult = Answer(text: string) | Failed(error: AIError)

  const NoResponse: string := "Aucune réponse générée"

  /** `response.choices[0]?.message?.content || 'Aucune réponse générée'`:
      an absent or empty content is replaced by the fallback text. */
  function ReplyText(content: Option<string>): (t: string)
    ensures t != ""
    ensures content.Some? && content.value != "" ==> t == content.value
    ensures content.None? || content.value == "" ==> t == NoResponse
  {
    if content.Some? && content.value != "" then content.value else NoResponse
  }

  /** `max_tokens` for the `responseLength` setting; `None` when no settings
      object is passed. The service's own settings interface types the
      length as a plain string, so any other value, not only `balanced`,
      falls back to 600; the settings module's three-valued
      `ResponseLength` is what the dialog can produce. */
  function MaxTokens(responseLength: Option<string>): (n: int)
    ensures n == 300 <==> responseLength == Some("concise")
    ensures n == 1000 <==> responseLength == Some("detailed")
    ensures n == 600 <==> responseLength != Some("concise") && responseLength != Some("detailed")
  {
    if responseLength == Some("concise") then 300
    else if responseLength == Some("detailed") then 1000
    else 600
  }

  function Pow2(k: nat): (p: nat)
    ensures p >= k + 1
  {
    if k == 0 then 1 else 2 * Pow2(k - 1)
  }

  /** Powers of two add their exponents. */
  lemma {:induction false} Pow2Add(a: nat, b: nat)
    ensures Pow2(a + b) == Pow2(a) * Pow2(b)
    decreases a
  {
    if a > 0 {
      Pow2Add(a - 1, b);
      assert Pow2(a + b) == 2 * Pow2(a - 1 + b);
      assert 2 * (Pow2(a - 1) * Pow2(b)) == (2 * Pow2(a - 1)) * Pow2(b);
    }
  }

  /** The wait after the `k`-th failed attempt: `1000 * 2^k` ms. */
  function Backoff(k: nat): nat {
    1000 * Pow2(k)
  }

  /** The waits taken after the first `k` failures: 2000, 4000, ... ms. */
  function Waits(k: nat): (w: seq<nat>)
    ensures |w| == k && forall i :: 0 <= i < k ==> w[i] == Backoff(i + 1)
    ensures k > 0 ==> w[0] == 2000
    ensures forall i :: 0 < i < k ==> w[i] == 2 * w[i - 1]
  {
    assert Pow2(1) == 2 * Pow2(0);
    seq(k, i requires 0 <= i < k => Backoff(i + 1))
  }

  function Sum(w: seq<nat>): nat
    decreases |w|
  {
    if |w| == 0 then 0 else Sum(w[..|w| - 1]) + w[|w| - 1]
  }

  /** An attempt succeeds when the key is configured and the provider
      answers; a missing key fails the attempt before any call. */
  predicate Succeeds(apiKeyConfigured: bool, reply: ProviderReply) {
    apiKeyConfigured && reply.Completion?
  }

  /** The retry loop of `getAIResponse`. It returns the result, how many
      attempts were made and the waits taken between them. */
  method RetryLoop(maxRetries: int, apiKeyConfigured: bool, replies: seq<ProviderReply>)
    returns (result: AIResult, tries: nat, waits: seq<nat>)
    requires maxRetries <= |replies|
    ensures tries <= |replies|
    ensures maxRetries <= 0 ==> result == Failed(UnexpectedError) && tries == 0 && waits == []
    ensures 0 < maxRetries ==> 1 <= tries <= maxRetries && waits == Waits(tries - 1)
    ensures forall k :: 0 <= k < tries - 1 ==> !Succeeds(apiKeyConfigured, replies[k])
    ensures result.Answer? <==> 0 < tries && Succeeds(apiKeyConfigured, replies[tries - 1])
    ensures result.Answer? ==> result.text == ReplyText(replies[tries - 1].content)
    ensures 0 < maxRetries && !result.Answer? ==> result == Failed(ExhaustedRetries) && tries == maxRetries
  {
    var attempts := 0;
    waits := [];
    while attempts < maxRetries
      invariant 0 <= attempts && (0 < maxRetries ==> attempts < maxRetries)
      invariant maxRetries <= 0 ==> attempts == 0
      invariant waits == Waits(attempts)
      invariant forall k :: 0 <= k < attempts ==> !Succeeds(apiKeyConfigured, replies[k])
      decreases maxRetries - attempts
    {
      var reply := replies[attempts];
      if apiKeyConfigured && reply.Completion? {
        return Answer(ReplyText(reply.content)), attempts + 1, waits;
      }
      attempts := attempts + 1;
      if attempts == maxRetries {
        return Failed(ExhaustedRetries), attempts, waits;
      }
      waits := waits + [Backoff(attempts)];
    }
    return Failed(UnexpectedError), 0, [];
  }

  /** The waits before the terminal error add up to `1000 * (2^n - 2)` ms:
      there is no wait after the last attempt. */
  lemma {:induction false} TotalWait(n: nat)
    requires n >= 1
    ensures Sum(Waits(n - 1)) == 1000 * (Pow2(n) - 2)
    decreases n
  {
    if n > 1 {
      assert Waits(n - 1)[..n - 2] == Waits(n - 2);
      TotalWait(n - 1);
    }
  }

  /** The request sent to the provider: the sanitized texts and the output
      budget (the rest of the system prompt is fixed wording). */
  datatype Request = Request(transcript: string, message: string, maxTokens: int)

  function BuildRequest(message: string, transcript: string, responseLength: Option<string>): (r: Request)
    ensures r.message == Sanitize(message) && r.transcript == Sanitize(transcript)
    ensures r.maxTokens == MaxTokens(responseLength)
  {
    Request(Sanitize(transcript), Sanitize(message), MaxTokens(responseLength))
  }

  /** `getAIResponse`: consult the limiter once, then sanitize and retry.
      A refused call throws before anything is sanitized, so no request is
      built; an allowed one behaves as the retry loop. */
  method GetAIResponse(
    bucket: Bucket, now: int, message: string, transcript: string,
    responseLength: Option<string>, maxRetries: int, apiKeyConfigured: bool,
    replies: seq<ProviderReply>)
    returns (result: AIResult, bucket': Bucket, request: Option<Request>, tries: nat, waits: seq<nat>)
    requires maxRetries <= |replies|
    ensures tries <= |replies|
    ensures bucket' == CheckLimit(bucket, now).bucket
    ensures CheckLimit(bucket, now).Limited? ==>
      result == Failed(RateLimitExceeded) && request == None && tries == 0 && waits == []
    ensures CheckLimit(bucket, now).Allowed? ==>
      && request == Some(BuildRequest(message, transcript, responseLength))
      && (maxRetries <= 0 ==> result == Failed(UnexpectedError) && tries == 0 && waits == [])
      && (0 < maxRetries ==> 1 <= tries <= maxRetries && waits == Waits(tries - 1))
      && (forall k :: 0 <= k < tries - 1 ==> !Succeeds(apiKeyConfigured, replies[k]))
      && (result.Answer? <==> 0 < tries && Succeeds(apiKeyConfigured, replies[tries - 1]))
      && (0 < maxRetries && !result.Answer? ==> result == Failed(ExhaustedRetries) && tries == maxRetries)
    ensures result.Answer? ==> result.text == ReplyText(replies[tries - 1].content)
  {
    var check := CheckLimit(bucket, now);
    bucket' := check.bucket;
    if check.Limited? {
      return Failed(RateLimitExceeded), bucket', None, 0, [];
    }
    request := Some(BuildRequest(message, transcript, responseLength));
    result, tries, waits := RetryLoop(maxRetries, apiKeyConfigured, replies);
  }

  /** With every attempt failing, exactly `n` attempts are made, the waits
      total `1000 * (2^n - 2)` ms and the terminal error is raised. */
  method AllAttemptsFail(n: int, apiKeyConfigured: bool, replies: seq<ProviderReply>)
    returns (result: AIResult, tries: nat, totalWait: nat)
    requires 1 <= n <= |replies|
    requires forall k :: 0 <= k < n ==> !Succeeds(apiKeyConfigured, replies[k])
    ensures result == Failed(ExhaustedRetries)
    ensures tries == n
    ensures totalWait == 1000 * (Pow2(n) - 2)
  {
    var waits;
    result, tries, waits := RetryLoop(n, apiKeyConfigured, replies);
    TotalWait(tries);
    totalWait := Sum(waits);
  }
}

=== FILE: chathistory.dfy ===
/** The browser-side conversation history: a list of sessions, newest
    first. The stored list is passed in and returned; serialization and
    date revival are not modelled. */
module ChatHistory {
  import opened Wrappers
  import opened Types
  import opened Seqs

  /** The last message's content, or `""` when there are no messages. */
  function Preview(messages: seq<Message>): (p: string)
    ensures |messages| == 0 ==> p == ""
    ensures |messages| > 0 ==> p == messages[|messages| - 1].content
  {
    if |messages| == 0 then "" else messages[|messages| - 1].content
  }

  /** The session record `saveChatToHistory` stores. */
  function SessionOf(messages: seq<Message>, transcript: Transcript, isFavorite: bool): (c: ChatSession)
    ensures c.id == transcript.id && c.title == transcript.title && c.date == transcript.uploadDate
    ensures c.messages == messages && c.transcript == transcript && c.isFavorite == isFavorite
    ensures c.preview == Preview(messages)
  {
    ChatSession(transcript.id, transcript.title, transcript.uploadDate, Preview(messages), messages, transcript, isFavorite)
  }

  /** The favourite flag actually stored for an argument `isFavorite`
      (`None` when the caller leaves it out): the default `false` applies
      first, so the branch that would keep the old flag never runs. */
  function StoredFavorite(isFavorite: Option<bool>, existing: Option<ChatSession>): (f: bool)
    ensures f == isFavorite.GetOr(false)
  {
    var arg := Some(isFavorite.GetOr(false));  // the parameter once its default applies
    match (existing, arg)
    case (Some(prior), None) => prior.isFavorite
    case _ => arg.GetOr(false)
  }

  /** `saveChatToHistory`: replace the first session with the transcript's
      id in place, or put the new session first. */
  function SaveChatToHistory(history: seq<ChatSession>, messages: seq<Message>, transcript: Transcript, isFavorite: Option<bool>): (r: seq<ChatSession>)
    ensures var i := FindIndex(history, (c: ChatSession) => c.id == transcript.id);
      var existing := if i >= 0 then Some(history[i]) else None;
      var session := SessionOf(messages, transcript, StoredFavorite(isFavorite, existing));
      && (i >= 0 ==> |r| == |history| && r[i] == session && forall j :: 0 <= j < |r| && j != i ==> r[j] == history[j])
      && (i < 0 ==> r == [session] + history)
  {
    var i := FindIndex(history, (c: ChatSession) => c.id == transcript.id);
    var existing := if i >= 0 then Some(history[i]) else None;
    var session := SessionOf(messages, transcript, StoredFavorite(isFavorite, existing));
    if i >= 0 then history[i := session] else [session] + history
  }

  /** `loadChatSession`: the first session with the id, or none. */
  function LoadChatSession(history: seq<ChatSession>, id: string): (r: Option<ChatSession>)
    ensures r.None? <==> forall j :: 0 <= j < |history| ==> history[j].id != id
    ensures r.Some? ==> exists j :: 0 <= j < |history| && history[j] == r.value && r.value.id == id
                                    && forall k :: 0 <= k < j ==> history[k].id != id
  {
    var i := FindIndex(history, (c: ChatSession) => c.id == id);
    if i < 0 then None else Some(history[i])
  }

  /** `deleteChatSession`: drop every session with the id. */
  function DeleteChatSession(history: seq<ChatSession>, id: string): (r: seq<ChatSession>)
    ensures forall j :: 0 <= j < |r| ==> r[j].id != id
    ensures forall c: ChatSession :: c.id != id ==> multiset(r)[c] == multiset(history)[c]
  {
    Filter((c: ChatSession) => c.id != id, history)
  }

  /** Deleting keeps the other sessions in their order. */
  lemma DeleteKeepsOrder(a: seq<ChatSession>, b: seq<ChatSession>, id: string)
    ensures DeleteChatSession(a + b, id) == DeleteChatSession(a, id) + DeleteChatSession(b, id)
  {
    FilterConcat((c: ChatSession) => c.id != id, a, b);
  }

  /** After a delete, loading the id finds nothing. */
  lemma LoadAfterDelete(history: seq<ChatSession>, id: string)
    ensures LoadChatSession(DeleteChatSession(history, id), id) == None
  {
  }

  /** Saving then loading the transcript's id gives back the saved session. */
  lemma LoadAfterSave(history: seq<ChatSession>, messages: seq<Message>, transcript: Transcript, isFavorite: Option<bool>)
    ensures LoadChatSession(SaveChatToHistory(history, messages, transcript, isFavorite), transcript.id)
            == Some(SessionOf(messages, transcript, isFavorite.GetOr(false)))
  {
    var r := SaveChatToHistory(history, messages, transcript, isFavorite);
    var i := FindIndex(history, (c: ChatSession) => c.id == transcript.id);
    var l := FindIndex(r, (c: ChatSession) => c.id == transcript.id);
    if i >= 0 {
      assert r[i].id == transcript.id;
      assert l == i;
    } else {
      assert r[0].id == transcript.id;
      assert l == 0;
    }
  }

  ghost predicate UniqueIds(history: seq<ChatSession>) {
    forall j, k :: 0 <= j < k < |history| ==> history[j].id != history[k].id
  }

  /** Saving keeps the ids unique and changes the length only for a new id. */
  lemma SavePreservesUniqueIds(history: seq<ChatSession>, messages: seq<Message>, transcript: Transcript, isFavorite: Option<bool>)
    requires UniqueIds(history)
    ensures UniqueIds(SaveChatToHistory(history, messages, transcript, isFavorite))
    ensures |SaveChatToHistory(history, messages, transcript, isFavorite)|
            == |history| + if LoadChatSession(history, transcript.id).None? then 1 else 0
  {
    var r := SaveChatToHistory(history, messages, transcript, isFavorite);
    var i := FindIndex(history, (c: ChatSession) => c.id == transcript.id);
    if i < 0 {
      forall j, k | 0 <= j < k < |r| ensures r[j].id != r[k].id {
        if j > 0 {
          assert r[j] == history[j - 1] && r[k] == history[k - 1];
        } else {
          assert r[k] == history[k - 1];
        }
      }
    }
  }
}

=== FILE: chatui.dfy ===
/** The decision logic embedded in the chat screen: upload validation and
    title, the send guard and the handling of the step-completion marker,
    the feedback buttons, the history search and the next-step button. */
module ChatInterface {
  import opened Wrappers
  import opened Types
  import opened Strings
  import opened Seqs
  import opened Coaching
  import opened AIService

  // ---------------------------------------------------------------- upload

  const MaxUploadSize: int := 5 * 1024 * 1024

  datatype FileErrorKind = SizeError | FormatError | ReadError | UnknownError

  datatype FileError = FileError(kind: FileErrorKind, message: string)

  const TooLargeMessage: string := "Ton fichier est trop volumineux. Taille maximum: 5MB"
  const WrongFormatMessage: string := "Tu dois utiliser uniquement des fichiers .txt"

  /** `validateFile`: size is checked before type. */
  function ValidateFile(size: int, mimeType: string): (r: Option<FileError>)
    ensures r.Some? && r.value.kind == SizeError <==> size > MaxUploadSize
    ensures r.Some? && r.value.kind == FormatError <==> size <= MaxUploadSize && mimeType != "text/plain"
    ensures r.None? <==> size <= MaxUploadSize && mimeType == "text/plain"
  {
    if size > MaxUploadSize then Some(FileError(SizeError, TooLargeMessage))
    else if mimeType != "text/plain" then Some(FileError(FormatError, WrongFormatMessage))
    else None
  }

  lemma FiveMebibytesAccepted()
    ensures ValidateFile(5242880, "text/plain") == None
    ensures ValidateFile(5242881, "text/plain").Some?
  {
  }

  /** The last position of `c` among the first `n` characters, or -1. */
  function LastIndexBefore(s: string, c: char, n: nat): (r: int)
    requires n <= |s|
    ensures -1 <= r < n
    ensures r >= 0 ==> s[r] == c
    ensures forall j :: r < j < n ==> s[j] != c
  {
    if n == 0 then -1
    else if s[n - 1] == c then n - 1
    else LastIndexBefore(s, c, n - 1)
  }

  /** Position `i` starts an extension: a dot followed by at least one
      character, none of them a dot or a slash, up to the end. */
  predicate ExtensionAt(name: string, i: int) {
    && 0 <= i < |name| - 1 && name[i] == '.'
    && forall j :: i < j < |name| ==> name[j] != '.' && name[j] != '/'
  }

  /** What `/\.[^/.]+$/` matches somewhere in the name. */
  ghost predicate HasExtension(name: string) {
    exists i :: ExtensionAt(name, i)
  }

  /** An extension, when there is one, starts at the last dot. */
  lemma ExtensionAtLastDot(name: string)
    ensures HasExtension(name) <==> ExtensionAt(name, LastIndexBefore(name, '.', |name|))
  {
    var i := LastIndexBefore(name, '.', |name|);
    if HasExtension(name) {
      var j :| ExtensionAt(name, j);
      assert j == i;
    }
  }

  /** The transcript title: `name.replace(/\.[^/.]+$/, '')`. */
  function UploadTitle(name: string): (r: string)
    ensures r == name <==> !HasExtension(name)
    ensures r != name ==> |r| + 2 <= |name| && name[..|r|] == r && ExtensionAt(name, |r|)
  {
    ExtensionAtLastDot(name);
    var i := LastIndexBefore(name, '.', |name|);
    if ExtensionAt(name, i) then name[..i] else name
  }

  /** Whatever dot starts the extension, the title is everything before it. */
  lemma TitleDropsExtension(name: string, i: int)
    requires ExtensionAt(name, i)
    ensures UploadTitle(name) == name[..i]
  {
  }

  lemma TitleExamples()
    ensures UploadTitle("notes.txt") == "notes"
    ensures UploadTitle("a.b.txt") == "a.b"
  {
    TitleDropsExtension("notes.txt", 5);
    TitleDropsExtension("a.b.txt", 3);
  }

  // ------------------------------------------------------------ sending

  const CompletionMarker: string := "[ÉTAPE_COMPLÉTÉE]"
  const ErrorReply: string := "Désolé, j'ai rencontré une erreur. Peux-tu réessayer?"

  datatype ChatState = ChatState(
    messages: seq<Message>,
    inputMessage: string,
    isLoading: bool,
    transcript: Option<Transcript>)

  /** The guard of `sendMessage`. */
  predicate CanSend(st: ChatState) {
    Trim(st.inputMessage) != "" && st.transcript.Some? && !st.isLoading
  }

  /** The reply reports that the current step is done. */
  predicate MarksCompletion(reply: string) {
    Contains(reply, CompletionMarker)
  }

  /** The text shown for a reply: the first marker removed, then trimmed. */
  function DisplayText(reply: string): (t: string)
    ensures Trimmed(t)
    ensures !MarksCompletion(reply) ==> t == Trim(reply)
    ensures MarksCompletion(reply) ==>
      var i := IndexOfSub(reply, CompletionMarker);
      t == Trim(reply[..i] + reply[i + |CompletionMarker|..])
  {
    var r := ReplaceFirst(reply, CompletionMarker, "");
    var i := IndexOfSub(reply, CompletionMarker);
    assert MarksCompletion(reply) ==> r == reply[..i] + reply[i + |CompletionMarker|..];
    Trim(r)
  }

  /** Only the first marker is removed: a doubled marker leaves one. */
  lemma DoubledMarkerLeavesOne()
    ensures DisplayText(CompletionMarker + CompletionMarker) == CompletionMarker
  {
    var m := CompletionMarker;
    var mm := m + m;
    assert mm[0..|m|] == m;
    assert OccursAt(mm, m, 0);
    assert IndexOfSub(mm, m) == 0;
    assert mm[..0] + mm[|m|..] == m;
    assert Trimmed(m) by {
      assert m[0] == '[' && m[|m| - 1] == ']';
      assert !IsSpace('[') && !IsSpace(']');
    }
  }

  /** What `sendMessage` did: the new screen state, whether the assistant
      was asked, and the step it reported complete. */
  datatype SendEffect = SendEffect(state: ChatState, aiCalled: bool, completed: Option<CoachingStep>)

  /** `sendMessage`. `sentAt` and `repliedAt` are the clock readings when
      the user message and the reply are created; `reply` is what
      `getAIResponse` returned. Without data for the current step the user
      message is still added but the assistant is not asked. */
  function SendMessage(
    st: ChatState, steps: map<CoachingStep, CoachingStepData>, currentStep: CoachingStep,
    sentAt: nat, repliedAt: nat, reply: AIResult): (e: SendEffect)
    ensures !CanSend(st) ==> e == SendEffect(st, false, None)
    ensures CanSend(st) ==>
      && |e.state.messages| == |st.messages| + (if currentStep in steps then 2 else 1)
      && (forall i :: 0 <= i < |st.messages| ==> e.state.messages[i] == st.messages[i])
      && e.state.messages[|st.messages|].sender == User
      && e.state.messages[|st.messages|].content == Trim(st.inputMessage)
      && e.state.inputMessage == "" && !e.state.isLoading && e.state.transcript == st.transcript
      && e.aiCalled == (currentStep in steps)
  {
    if !CanSend(st) then SendEffect(st, false, None)
    else
      var user := Message(NatToString(sentAt), Trim(st.inputMessage), User, sentAt, None, None);
      var msgs := st.messages + [user];
      if currentStep !in steps then
        SendEffect(ChatState(msgs, "", false, st.transcript), false, None)
      else
        var ai := ReplyMessage(reply, repliedAt);
        var completed := if reply.Answer? && MarksCompletion(reply.text) then Some(currentStep) else None;
        SendEffect(ChatState(msgs + [ai], "", false, st.transcript), true, completed)
  }

  /** The assistant's message: the displayed reply, or the apology when the
      service failed. Its id is the clock reading plus one. */
  function ReplyMessage(reply: AIResult, repliedAt: nat): Message {
    match reply
    case Answer(text) => Message(NatToString(repliedAt + 1), DisplayText(text), Ai, repliedAt, None, None)
    case Failed(_) => Message(NatToString(repliedAt + 1), ErrorReply, Ai, repliedAt, None, None)
  }

  /** A step is reported complete exactly when the assistant was asked and
      its reply carries the marker; it is the step the message was sent for. */
  lemma SendReportsCompletion(st: ChatState, steps: map<CoachingStep, CoachingStepData>, currentStep: CoachingStep,
                              sentAt: nat, repliedAt: nat, reply: AIResult)
    ensures var e := SendMessage(st, steps, currentStep, sentAt, repliedAt, reply);
      && (e.completed.Some? <==> CanSend(st) && currentStep in steps && reply.Answer? && MarksCompletion(reply.text))
      && (e.completed.Some? ==> e.completed.value == currentStep)
  {
  }

  /** The assistant's message shows the reply without its marker, or the
      apology when the service failed. */
  lemma SendShowsReply(st: ChatState, steps: map<CoachingStep, CoachingStepData>, currentStep: CoachingStep,
                       sentAt: nat, repliedAt: nat, reply: AIResult)
    requires CanSend(st) && currentStep in steps
    ensures var ai := SendMessage(st, steps, currentStep, sentAt, repliedAt, reply).state.messages[|st.messages| + 1];
      && ai.sender == Ai
      && (reply.Answer? ==> ai.content == DisplayText(reply.text) && (!MarksCompletion(reply.text) ==> ai.content == Trim(reply.text)))
      && (reply.Failed? ==> ai.content == ErrorReply)
  {
  }

  /** The user message and the reply get different ids, since the reply is
      stamped at a later clock reading plus one. */
  lemma SendIdsDiffer(st: ChatState, steps: map<CoachingStep, CoachingStepData>, currentStep: CoachingStep,
                      sentAt: nat, repliedAt: nat, reply: AIResult)
    requires CanSend(st) && currentStep in steps && sentAt <= repliedAt
    ensures var ms := SendMessage(st, steps, currentStep, sentAt, repliedAt, reply).state.messages;
      ms[|st.messages|].id != ms[|st.messages| + 1].id
  {
    if NatToString(sentAt) == NatToString(repliedAt + 1) {
      NatToStringInjective(sentAt, repliedAt + 1);
    }
  }

  /** A reply carrying the marker, received while the tracker is still at
      the step the message was sent for, opens the next-step gate; a reply
      without it leaves the tracker alone. */
  lemma MarkerOpensGate(t: Tracker, st: ChatState, steps: map<CoachingStep, CoachingStepData>,
                        sentAt: nat, repliedAt: nat, reply: AIResult)
    requires CanSend(st) && t.progress.currentStep in steps
    ensures var e := SendMessage(st, steps, t.progress.currentStep, sentAt, repliedAt, reply);
      && (e.completed.Some? ==> CompleteStep(t, e.completed.value).canProceedToNext)
      && (e.completed.Some? <==> reply.Answer? && MarksCompletion(reply.text))
  {
    SendReportsCompletion(st, steps, t.progress.currentStep, sentAt, repliedAt, reply);
  }

  /** As the chat screen is written, the completion a reply reports is
      checked against the progress of the render that sent the message, so
      a marked reply opens the live gate wherever the tracker is by the
      time the reply arrives, and changes nothing else. */
  lemma MarkedReplyOpensLiveGate(rendered: CoachingProgress, live: Tracker, st: ChatState,
                                 steps: map<CoachingStep, CoachingStepData>,
                                 sentAt: nat, repliedAt: nat, reply: AIResult)
    requires CanSend(st) && rendered.currentStep in steps
    ensures var e := SendMessage(st, steps, rendered.currentStep, sentAt, repliedAt, reply);
      && (e.completed.Some? <==> reply.Answer? && MarksCompletion(reply.text))
      && (e.completed.Some? ==> CompleteStepFrom(rendered, live, e.completed.value) == live.(canProceedToNext := true))
  {
    SendReportsCompletion(st, steps, rendered.currentStep, sentAt, repliedAt, reply);
  }

  // ----------------------------------------------------------- feedback

  /** Set the feedback of every message with the id; nothing else changes. */
  function SetFeedback(messages: seq<Message>, id: string, kind: FeedbackKind): (r: seq<Message>)
    ensures |r| == |messages|
    ensures forall i :: 0 <= i < |r| && messages[i].id != id ==> r[i] == messages[i]
    ensures forall i :: 0 <= i < |r| && messages[i].id == id ==> r[i] == messages[i].(feedback := Some(kind))
  {
    seq(|messages|, i requires 0 <= i < |messages| =>
      if messages[i].id == id then messages[i].(feedback := Some(kind)) else messages[i])
  }

  /** The outcome of a feedback click: the messages, whether a save ran,
      and `dialogFor`, the dialog's message id as this call leaves it.
      Where the source leaves `currentFeedbackMessageId` untouched (a save
      from a thumbs-up, the repeated-vote reset) the model reports `None`;
      nothing on those paths reads the id before a thumbs-down sets it
      again. */
  datatype FeedbackEffect = FeedbackEffect(messages: seq<Message>, dialogFor: Option<string>, saved: bool)

  /** `saveFeedback`'s state change; the persistence call is outside the
      model. */
  function SaveFeedback(messages: seq<Message>, id: string, kind: FeedbackKind): (e: FeedbackEffect)
    requires kind != Cleared
    ensures e.saved && e.dialogFor.None?
    ensures e.messages == SetFeedback(messages, id, kind)
  {
    FeedbackEffect(SetFeedback(messages, id, kind), None, true)
  }

  /** `handleFeedback`: the same vote again clears it without saving; a new
      negative vote opens the dialog and changes nothing yet; a new positive
      vote is saved. */
  function HandleFeedback(messages: seq<Message>, id: string, kind: FeedbackKind): (e: FeedbackEffect)
    requires kind != Cleared
    ensures var i := FindIndex(messages, (m: Message) => m.id == id);
      var same := i >= 0 && messages[i].feedback == Some(kind);
      && (same ==> e == FeedbackEffect(SetFeedback(messages, id, Cleared), None, false))
      && (!same && kind == Negative ==> e == FeedbackEffect(messages, Some(id), false))
      && (!same && kind == Positive ==> e == FeedbackEffect(SetFeedback(messages, id, Positive), None, true))
  {
    var i := FindIndex(messages, (m: Message) => m.id == id);
    if i >= 0 && messages[i].feedback == Some(kind) then
      FeedbackEffect(SetFeedback(messages, id, Cleared), None, false)
    else if kind == Negative then
      FeedbackEffect(messages, Some(id), false)
    else
      SaveFeedback(messages, id, kind)
  }

  /** Clicking thumbs-up twice on a message leaves it cleared, saving once. */
  lemma PositiveTwiceClears(messages: seq<Message>, id: string)
    requires exists i :: 0 <= i < |messages| && messages[i].id == id
    requires forall i :: 0 <= i < |messages| && messages[i].id == id ==> messages[i].feedback != Some(Positive)
    ensures var e1 := HandleFeedback(messages, id, Positive);
      var e2 := HandleFeedback(e1.messages, id, Positive);
      && e1.saved && !e2.saved
      && e2.messages == SetFeedback(messages, id, Cleared)
  {
    var e1 := HandleFeedback(messages, id, Positive);
    var i := FindIndex(messages, (m: Message) => m.id == id);
    var j := FindIndex(e1.messages, (m: Message) => m.id == id);
    var s1 := SetFeedback(messages, id, Positive);
    assert e1.messages == s1;
    assert j == i;
    assert s1[i].feedback == Some(Positive);
    var s2 := SetFeedback(s1, id, Cleared);
    assert s2 == SetFeedback(messages, id, Cleared);
  }

  /** `handleDetailedFeedback`: submitting the dialog saves a negative vote
      for the message it was opened for, then forgets that message. The
      truthiness test treats a missing id and an empty one alike: nothing
      happens. */
  function SubmitDetailedFeedback(messages: seq<Message>, dialogFor: Option<string>): (e: FeedbackEffect)
    ensures dialogFor.None? || dialogFor == Some("") ==> e == FeedbackEffect(messages, dialogFor, false)
    ensures dialogFor.Some? && dialogFor.value != "" ==>
      e.saved && e.dialogFor.None? && e.messages == SetFeedback(messages, dialogFor.value, Negative)
  {
    match dialogFor
    case None => FeedbackEffect(messages, None, false)
    case Some(id) =>
      if id == "" then FeedbackEffect(messages, dialogFor, false) else SaveFeedback(messages, id, Negative)
  }

  /** A new thumbs-down changes nothing until the dialog is submitted, which
      then records the negative vote on that message alone. */
  lemma NegativeVoteWaitsForDialog(messages: seq<Message>, id: string)
    requires forall i :: 0 <= i < |messages| && messages[i].id == id ==> messages[i].feedback != Some(Negative)
    ensures var e1 := HandleFeedback(messages, id, Negative);
      var e2 := SubmitDetailedFeedback(e1.messages, e1.dialogFor);
      && e1.messages == messages && !e1.saved
      && (id != "" ==> e2.saved && e2.messages == SetFeedback(messages, id, Negative))
      && (id == "" ==> !e2.saved && e2.messages == messages)
  {
  }

  // ----------------------------------------------------- history search

  datatype HistoryEntry = HistoryEntry(id: string, title: string, date: int, preview: string, isFavorite: bool)

  /** The filter predicate of the history sidebar. */
  predicate MatchesQuery(e: HistoryEntry, searchQuery: string) {
    var query := Trim(ToLower(searchQuery));
    if StartsWith(query, "fav:") then
      var term := Trim(query[4..]);
      if term == "" then e.isFavorite else e.isFavorite && Contains(ToLower(e.title), term)
    else Contains(ToLower(e.title), query)
  }

  function FilterHistory(entries: seq<HistoryEntry>, searchQuery: string): (r: seq<HistoryEntry>)
    ensures forall i :: 0 <= i < |r| ==> MatchesQuery(r[i], searchQuery)
    ensures forall e: HistoryEntry :: multiset(r)[e] == if MatchesQuery(e, searchQuery) then multiset(entries)[e] else 0
  {
    Filter((e: HistoryEntry) => MatchesQuery(e, searchQuery), entries)
  }

  /** The filter keeps the sidebar's order: filtering a history split in
      two filters each part and keeps them in sequence. */
  lemma FilterHistoryKeepsOrder(a: seq<HistoryEntry>, b: seq<HistoryEntry>, searchQuery: string)
    ensures FilterHistory(a + b, searchQuery) == FilterHistory(a, searchQuery) + FilterHistory(b, searchQuery)
  {
    FilterConcat((e: HistoryEntry) => MatchesQuery(e, searchQuery), a, b);
  }

  /** An empty or blank query keeps every conversation. */
  lemma BlankQueryKeepsAll(entries: seq<HistoryEntry>, searchQuery: string)
    requires Trim(ToLower(searchQuery)) == ""
    ensures FilterHistory(entries, searchQuery) == entries
  {
    forall i | 0 <= i < |entries| ensures MatchesQuery(entries[i], searchQuery) {
      assert OccursAt(ToLower(entries[i].title), "", 0);
    }
    FilterAll((e: HistoryEntry) => MatchesQuery(e, searchQuery), entries);
  }

  /** `fav:` alone keeps exactly the favourites. */
  lemma FavPrefixAloneKeepsFavorites(e: HistoryEntry, searchQuery: string)
    requires Trim(ToLower(searchQuery)) == "fav:"
    ensures MatchesQuery(e, searchQuery) <==> e.isFavorite
  {
    FavQueryFacts(Trim(ToLower(searchQuery)));
  }

  lemma FavQueryFacts(q: string)
    requires q == "fav:"
    ensures StartsWith(q, "fav:") && Trim(q[4..]) == ""
  {
    assert q[..4] == q;
    assert q[4..] == "";
  }

  /** `fav:<term>` keeps the favourites whose lower-cased title contains the
      term; any other query keeps the titles containing it. */
  lemma QueryCases(e: HistoryEntry, searchQuery: string)
    ensures var q := Trim(ToLower(searchQuery));
      && (StartsWith(q, "fav:") && Trim(q[4..]) != "" ==>
            (MatchesQuery(e, searchQuery) <==> e.isFavorite && Contains(ToLower(e.title), Trim(q[4..]))))
      && (!StartsWith(q, "fav:") ==> (MatchesQuery(e, searchQuery) <==> Contains(ToLower(e.title), q)))
  {
  }

  // ---------------------------------------------------- next-step button

  /** `renderNextStepButton`: offered while the gate is open and the
      sequence is not complete. */
  predicate ShowNextStepButton(t: Tracker) {
    t.canProceedToNext && !t.progress.isComplete
  }

  /** Whenever the button is offered, clicking it records the current step
      as completed; when the gate is closed, the button is absent and an
      advance would change nothing. */
  lemma NextStepButtonAdvances(t: Tracker, order: seq<CoachingStep>)
    ensures ShowNextStepButton(t) ==>
      MoveToNextStep(t, order).progress.completedSteps == t.progress.completedSteps + [t.progress.currentStep]
    ensures !t.canProceedToNext ==> !ShowNextStepButton(t) && MoveToNextStep(t, order) == t
  {
  }
}

=== FILE: coaching.dfy ===
/** The coaching progress tracker: which step is active, which steps were
    passed, whether the whole sequence is done, and the transient gate
    `canProceedToNext` that a completion signal opens and an advance closes.
    The configured step order is passed to every operation. */
module Coaching {
  import opened Types
  import opened Seqs

  /** The identifier used when the order has no usable first step. */
  const FallbackStep: CoachingStep := "custom_step_0"

  datatype Tracker = Tracker(progress: CoachingProgress, canProceedToNext: bool)

  /** `stepOrder[0] || 'custom_step_0'`: an absent or empty first entry is
      falsy and falls back. */
  function FirstStep(order: seq<CoachingStep>): (s: CoachingStep)
    ensures |order| > 0 && order[0] != "" ==> s == order[0]
    ensures |order| == 0 || order[0] == "" ==> s == FallbackStep
  {
    if |order| > 0 && order[0] != "" then order[0] else FallbackStep
  }

  /** The tracker a session starts with, and the one `resetProgress`
      restores. */
  function Initial(order: seq<CoachingStep>): (t: Tracker)
    ensures t.progress.currentStep == FirstStep(order)
    ensures t.progress.completedSteps == [] && !t.progress.isComplete
    ensures !t.canProceedToNext
  {
    Tracker(CoachingProgress(FirstStep(order), [], false), false)
  }

  /** `resetProgress`: back to the first step, nothing completed, gate
      closed, whatever the tracker held. */
  function ResetProgress(t: Tracker, order: seq<CoachingStep>): (r: Tracker)
    ensures r.progress == CoachingProgress(FirstStep(order), [], false)
    ensures !r.canProceedToNext
  {
    Initial(order)
  }

  /** `completeStep` as the chat screen calls it. The handler and the
      `progress` it compares with belong to the render that created the send
      handler (`rendered`), while the gate it opens is the live one. The
      chat screen passes `rendered.currentStep` itself, so the comparison
      always succeeds, even when the live tracker has moved on since. */
  function CompleteStepFrom(rendered: CoachingProgress, live: Tracker, step: CoachingStep): (r: Tracker)
    ensures r.progress == live.progress
    ensures r.canProceedToNext <==> live.canProceedToNext || step == rendered.currentStep
  {
    if step == rendered.currentStep then live.(canProceedToNext := true) else live
  }

  /** The completion signal compared with the live tracker: a signal for
      the current step opens the gate, a signal for any other step is
      ignored, and progress never changes. When nothing happened between
      the render and the signal, it is what the chat screen does. */
  function CompleteStep(t: Tracker, step: CoachingStep): (r: Tracker)
    ensures r.progress == t.progress
    ensures r.canProceedToNext <==> t.canProceedToNext || step == t.progress.currentStep
    ensures step != t.progress.currentStep ==> r == t
    ensures r == CompleteStepFrom(t.progress, t, step)
  {
    if step == t.progress.currentStep then t.(canProceedToNext := true) else t
  }

  /** As written, a marked reply that arrives after the user advanced opens
      the gate on the later step, which never received a marker: with the
      order [a, b], a message sent at `a` with the gate open, an advance to
      `b` while the reply is pending, then the reply. Compared with the live
      tracker, the same signal leaves the gate at `b` closed. */
  lemma LateMarkerOpensLaterStep(a: CoachingStep, b: CoachingStep, done: seq<CoachingStep>)
    requires a != b
    ensures
      var order := [a, b];
      var sent := Tracker(CoachingProgress(a, done, false), true);
      var live := MoveToNextStep(sent, order);
      && live.progress.currentStep == b && !live.canProceedToNext
      && CompleteStepFrom(sent.progress, live, a).progress.currentStep == b
      && CompleteStepFrom(sent.progress, live, a).canProceedToNext
      && CompleteStep(live, a) == live
  {
    assert IndexOf([a, b], a) == 0;
  }

  /** `moveToNextStep`. Nothing happens while the gate is closed. Otherwise
      the current step is appended to the completed steps and, when a step
      follows it in the order (a step missing from the order has index -1,
      so `order[0]` follows it), that step becomes current and the gate
      closes; when none follows, the sequence is marked complete, the
      current step stays and the gate stays open. */
  function MoveToNextStep(t: Tracker, order: seq<CoachingStep>): (r: Tracker)
    ensures !t.canProceedToNext ==> r == t
    ensures t.canProceedToNext ==>
      r.progress.completedSteps == t.progress.completedSteps + [t.progress.currentStep]
    ensures t.canProceedToNext && IndexOf(order, t.progress.currentStep) < |order| - 1 ==>
      && r.progress.currentStep == order[IndexOf(order, t.progress.currentStep) + 1]
      && r.progress.isComplete == t.progress.isComplete
      && !r.canProceedToNext
    ensures t.canProceedToNext && IndexOf(order, t.progress.currentStep) >= |order| - 1 ==>
      && r.progress.currentStep == t.progress.currentStep
      && r.progress.isComplete
      && r.canProceedToNext
  {
    if !t.canProceedToNext then t
    else
      var p := t.progress;
      var i := IndexOf(order, p.currentStep);
      if i < |order| - 1 then
        Tracker(p.(currentStep := order[i + 1], completedSteps := p.completedSteps + [p.currentStep]), false)
      else
        t.(progress := p.(isComplete := true, completedSteps := p.completedSteps + [p.currentStep]))
  }

  /** The user-visible events that drive the tracker. `Complete` is the
      corrected completion signal; `CompleteAsRendered` is the one the chat
      screen sends, checked against the progress of an earlier render. The
      invariants below hold for runs that mix both. */
  datatype Event =
    | Complete(step: CoachingStep)
    | CompleteAsRendered(rendered: CoachingProgress, step: CoachingStep)
    | Advance
    | Reset

  function Step(t: Tracker, order: seq<CoachingStep>, e: Event): Tracker {
    match e
    case Complete(s) => CompleteStep(t, s)
    case CompleteAsRendered(rendered, s) => CompleteStepFrom(rendered, t, s)
    case Advance => MoveToNextStep(t, order)
    case Reset => ResetProgress(t, order)
  }

  /** The tracker after a sequence of events, the order fixed throughout. */
  function Run(t: Tracker, order: seq<CoachingStep>, events: seq<Event>): Tracker
    decreases |events|
  {
    if |events| == 0 then t else Run(Step(t, order, events[0]), order, events[1..])
  }

  /** Running two event sequences one after the other. */
  lemma {:induction false} RunConcat(t: Tracker, order: seq<CoachingStep>, a: seq<Event>, b: seq<Event>)
    ensures Run(t, order, a + b) == Run(Run(t, order, a), order, b)
    decreases |a|
  {
    if |a| == 0 {
      assert a + b == b;
    } else {
      assert (a + b)[1..] == a[1..] + b;
      RunConcat(Step(t, order, a[0]), order, a[1..], b);
    }
  }

  /** A reset discards the whole history before it: what follows behaves
      as in a fresh session. */
  lemma ResetDiscardsHistory(t: Tracker, order: seq<CoachingStep>, before: seq<Event>, after: seq<Event>)
    ensures Run(t, order, before + [Reset] + after) == Run(Initial(order), order, after)
  {
    assert before + [Reset] + after == before + ([Reset] + after);
    RunConcat(t, order, before, [Reset] + after);
    assert ([Reset] + after)[1..] == after;
  }

  function Advances(n: nat): (es: seq<Event>)
    ensures |es| == n && forall i :: 0 <= i < n ==> es[i] == Advance
  {
    seq(n, _ => Advance)
  }

  /** While the gate is closed, any number of advances leaves the tracker
      exactly as it was. */
  lemma {:induction false} BlockedAdvancesAreNoOps(t: Tracker, order: seq<CoachingStep>, n: nat)
    requires !t.canProceedToNext
    ensures Run(t, order, Advances(n)) == t
    decreases n
  {
    if n > 0 {
      assert Advances(n)[1..] == Advances(n - 1);
      BlockedAdvancesAreNoOps(t, order, n - 1);
    }
  }

  /** A current step missing from the order restarts at the first step of
      a non-empty order, and marks completion with an empty one. */
  lemma MissingStepRestarts(t: Tracker, order: seq<CoachingStep>)
    requires t.canProceedToNext && t.progress.currentStep !in order
    ensures |order| > 0 ==> MoveToNextStep(t, order).progress.currentStep == order[0]
    ensures |order| == 0 ==> MoveToNextStep(t, order).progress.isComplete
  {
  }

  /** In the terminal state every further advance appends the last step
      again: the gate is never closed there. */
  lemma TerminalAdvanceRepeats(t: Tracker, order: seq<CoachingStep>)
    requires t.canProceedToNext && |order| > 0 && t.progress.currentStep == order[|order| - 1]
    requires t.progress.currentStep !in order[..|order| - 1]
    ensures MoveToNextStep(t, order).progress.isComplete
    ensures MoveToNextStep(MoveToNextStep(t, order), order).progress.completedSteps
            == t.progress.completedSteps + [order[|order| - 1], order[|order| - 1]]
  {
  }

  /** The configured order the invariant is stated for: non-empty, no step
      listed twice, and a usable first entry. */
  ghost predicate GoodOrder(order: seq<CoachingStep>) {
    |order| > 0 && order[0] != "" && Distinct(order)
  }

  /** Before completion the completed steps are exactly the steps before the
      current one in the order; after it they start with the whole order,
      followed only by repeats of the last step, which stays current. */
  ghost predicate Consistent(order: seq<CoachingStep>, t: Tracker) {
    var p := t.progress;
    && |order| > 0
    && (!p.isComplete ==>
        && |p.completedSteps| < |order|
        && p.completedSteps == order[..|p.completedSteps|]
        && p.currentStep == order[|p.completedSteps|])
    && (p.isComplete ==>
        && |order| <= |p.completedSteps|
        && p.completedSteps[..|order|] == order
        && p.currentStep == order[|order| - 1]
        && forall k :: |order| <= k < |p.completedSteps| ==> p.completedSteps[k] == p.currentStep)
  }

  lemma InitialConsistent(order: seq<CoachingStep>)
    requires GoodOrder(order)
    ensures Consistent(order, Initial(order))
  {
  }

  lemma StepPreservesConsistent(order: seq<CoachingStep>, t: Tracker, e: Event)
    requires GoodOrder(order) && Consistent(order, t)
    ensures Consistent(order, Step(t, order, e))
  {
    if e == Advance && t.canProceedToNext {
      var p := t.progress;
      var r := MoveToNextStep(t, order);
      if !p.isComplete {
        var n := |p.completedSteps|;
        IndexOfDistinct(order, n);
        assert order[..n + 1] == order[..n] + [order[n]];
      } else {
        IndexOfDistinct(order, |order| - 1);
        var c := r.progress.completedSteps;
        assert c[..|order|] == p.completedSteps[..|order|];
      }
    }
  }

  /** With a well-formed order, every run from the initial tracker keeps the
      tracker consistent with the order; in particular the current step is
      always one of the configured steps. */
  lemma {:induction false} RunPreservesConsistent(order: seq<CoachingStep>, t: Tracker, events: seq<Event>)
    requires GoodOrder(order) && Consistent(order, t)
    ensures Consistent(order, Run(t, order, events))
    ensures Run(t, order, events).progress.currentStep in order
    decreases |events|
  {
    if |events| > 0 {
      StepPreservesConsistent(order, t, events[0]);
      RunPreservesConsistent(order, Step(t, order, events[0]), events[1..]);
    } else {
      var p := t.progress;
      if !p.isComplete {
        assert p.currentStep == order[|p.completedSteps|];
      }
    }
  }

  /** For any non-empty order with a usable first entry, repeated steps
      included, every run keeps the current step among the configured
      steps. */
  lemma {:induction false} RunKeepsStepConfigured(order: seq<CoachingStep>, t: Tracker, events: seq<Event>)
    requires |order| > 0 && order[0] != "" && t.progress.currentStep in order
    ensures Run(t, order, events).progress.currentStep in order
    decreases |events|
  {
    if |events| > 0 {
      var t' := Step(t, order, events[0]);
      assert t'.progress.currentStep in order by {
        if events[0] == Advance && t.canProceedToNext {
          var i := IndexOf(order, t.progress.currentStep);
          if i < |order| - 1 {
            assert t'.progress.currentStep == order[i + 1];
          }
        } else if events[0] == Reset {
          assert t'.progress.currentStep == order[0];
        }
      }
      RunKeepsStepConfigured(order, t', events[1..]);
    }
  }

  /** An order that lists a step a second time, at position `d`, is never
      completed. From a step whose first occurrence lies before `d`, an
      advance lands on a step whose first occurrence again lies before `d`,
      so the walk cycles through the first `d` positions, appending to the
      completed steps forever, and never reaches the last step. */
  lemma {:induction false} RepeatedStepNeverCompletes(order: seq<CoachingStep>, d: int, t: Tracker, events: seq<Event>)
    requires 0 < d < |order| && order[d] in order[..d] && order[0] != ""
    requires !t.progress.isComplete && 0 <= IndexOf(order, t.progress.currentStep) < d
    ensures !Run(t, order, events).progress.isComplete
    ensures 0 <= IndexOf(order, Run(t, order, events).progress.currentStep) < d
    decreases |events|
  {
    if |events| > 0 {
      var t' := Step(t, order, events[0]);
      assert !t'.progress.isComplete && 0 <= IndexOf(order, t'.progress.currentStep) < d by {
        if events[0] == Advance && t.canProceedToNext {
          var i := IndexOf(order, t.progress.currentStep);
          assert t'.progress.currentStep == order[i + 1];
          if i + 1 < d {
            IndexOfAtMost(order, order[i + 1], i + 1);
          } else {
            var j :| 0 <= j < d && order[..d][j] == order[d];
            IndexOfAtMost(order, order[d], j);
          }
        } else if events[0] == Reset {
          IndexOfAtMost(order, order[0], 0);
        }
      }
      RepeatedStepNeverCompletes(order, d, t', events[1..]);
    }
  }

  /** The smallest such order: with [a, a], an advance from `a` with the
      gate open returns to `a`, records `a` once more and closes the gate. */
  lemma TwiceListedStepCycles(a: CoachingStep, done: seq<CoachingStep>)
    ensures
      var r := MoveToNextStep(Tracker(CoachingProgress(a, done, false), true), [a, a]);
      r == Tracker(CoachingProgress(a, done + [a], false), false)
  {
    assert IndexOf([a, a], a) == 0;
  }

  /** The three-step walk-through: completing and advancing through
      [A, B, C] ends at C with all three completed and the sequence done. */
  lemma ThreeStepWalkThrough(a: CoachingStep, b: CoachingStep, c: CoachingStep)
    requires a != "" && a != b && b != c && a != c
    ensures
      var order := [a, b, c];
      var t := Run(Initial(order), order,
                   [Complete(a), Advance, Complete(b), Advance, Complete(c), Advance]);
      t.progress == CoachingProgress(c, [a, b, c], true)
  {
    var order := [a, b, c];
    var t0 := Initial(order);
    var t1 := MoveToNextStep(CompleteStep(t0, a), order);
    assert IndexOf(order, a) == 0;
    assert t1.progress == CoachingProgress(b, [a], false);
    var t2 := MoveToNextStep(CompleteStep(t1, b), order);
    assert IndexOf(order, b) == 1;
    assert t2.progress == CoachingProgress(c, [a, b], false);
    var t3 := MoveToNextStep(CompleteStep(t2, c), order);
    assert IndexOf(order, c) == 2;
    assert t3.progress == CoachingProgress(c, [a, b, c], true);
    var es := [Complete(a), Advance, Complete(b), Advance, Complete(c), Advance];
    assert es[1..] == [Advance, Complete(b), Advance, Complete(c), Advance];
    assert es[2..] == [Complete(b), Advance, Complete(c), Advance];
    assert es[3..] == [Advance, Complete(c), Advance];
    assert es[4..] == [Complete(c), Advance];
    assert es[5..] == [Advance];
    calc {
      Run(t0, order, es);
      Run(CompleteStep(t0, a), order, es[1..]);
      { assert es[1..][1..] == es[2..]; }
      Run(t1, order, es[2..]);
      { assert es[2..][1..] == es[3..]; }
      Run(CompleteStep(t1, b), order, es[3..]);
      { assert es[3..][1..] == es[4..]; }
      Run(t2, order, es[4..]);
      { assert es[4..][1..] == es[5..]; }
      Run(CompleteStep(t2, c), order, es[5..]);
      { assert es[5..][1..] == []; }
      t3;
    }
  }
}

=== FILE: ratelimiter.dfy ===
/** The client-side token bucket consulted before every assistant request:
    capacity 10, one token per whole second elapsed, refilled lazily when
    checked. Time is an explicit parameter in milliseconds. */
module RateLimiter {

  const Capacity: int := 10
  const RefillRate: int := 1000

  datatype Bucket = Bucket(tokens: int, lastRefill: int)

  /** The bucket as created when the module loads at time `loadTime`. */
  function NewBucket(loadTime: int): (b: Bucket)
    ensures b.tokens == Capacity && b.lastRefill == loadTime
  {
    Bucket(Capacity, loadTime)
  }

  /** `Math.floor(a / d)`. */
  function FloorDiv(a: int, d: int): (q: int)
    requires d > 0
    ensures q * d <= a < q * d + d
  {
    a / d
  }

  /** The token count after refilling for the time elapsed since the last
      check: `min(10, tokens + floor(elapsed / 1000))`. */
  function Refilled(b: Bucket, now: int): (n: int)
    ensures n <= Capacity
    ensures n == Capacity || n == b.tokens + FloorDiv(now - b.lastRefill, RefillRate)
    ensures n >= b.tokens + FloorDiv(now - b.lastRefill, RefillRate) || n == Capacity
    ensures n <= b.tokens + FloorDiv(now - b.lastRefill, RefillRate)
    ensures 0 <= now - b.lastRefill < RefillRate ==> n == if b.tokens < Capacity then b.tokens else Capacity
  {
    var n := b.tokens + FloorDiv(now - b.lastRefill, RefillRate);
    if n < Capacity then n else Capacity
  }

  /** The outcome of `checkLimit`: the bucket is stored in both cases. */
  datatype Check = Allowed(bucket: Bucket) | Limited(bucket: Bucket)

  /** `checkLimit`: refill, stamp the check time (rejected checks included),
      reject when no token is left, otherwise take one. */
  function CheckLimit(b: Bucket, now: int): (r: Check)
    ensures r.bucket.lastRefill == now
    ensures r.Limited? <==> Refilled(b, now) <= 0
    ensures r.Allowed? ==> r.bucket.tokens == Refilled(b, now) - 1
    ensures r.Limited? ==> r.bucket.tokens == Refilled(b, now)
    ensures r.bucket.tokens < Capacity
    ensures 0 <= b.tokens && b.lastRefill <= now ==> 0 <= r.bucket.tokens
  {
    var n := Refilled(b, now);
    if n <= 0 then Limited(Bucket(n, now)) else Allowed(Bucket(n - 1, now))
  }

  /** The bucket after a series of checks at the given times, and how many
      of them were allowed. */
  function Checks(b: Bucket, times: seq<int>): (Bucket, nat)
    decreases |times|
  {
    if |times| == 0 then (b, 0)
    else
      var r := CheckLimit(b, times[0]);
      var (b', n) := Checks(r.bucket, times[1..]);
      (b', n + if r.Allowed? then 1 else 0)
  }

  function Min(a: int, b: int): int { if a < b then a else b }
  function Max(a: int, b: int): int { if a < b then b else a }

  /** `n` checks at a single instant `now`: the first refills, the rest see
      no elapsed time, so exactly `min(n, max(0, refilled))` are allowed. */
  lemma {:induction false} BurstAtOneInstant(b: Bucket, now: int, n: nat)
    requires n >= 1
    ensures Checks(b, seq(n, _ => now)).1 == Min(n, Max(0, Refilled(b, now)))
    decreases n
  {
    var times := seq(n, _ => now);
    var r := CheckLimit(b, now);
    assert times[1..] == seq(n - 1, _ => now);
    if n > 1 {
      BurstAtOneInstant(r.bucket, now, n - 1);
      assert Refilled(r.bucket, now) == r.bucket.tokens;
    }
  }

  /** From the bucket as loaded, ten checks at the load instant pass and
      the eleventh is refused. */
  lemma TenThenRefused(now: int)
    ensures Checks(NewBucket(now), seq(10, _ => now)).1 == 10
    ensures Checks(NewBucket(now), seq(11, _ => now)).1 == 10
  {
    BurstAtOneInstant(NewBucket(now), now, 10);
    BurstAtOneInstant(NewBucket(now), now, 11);
  }

  /** After an empty bucket has rested `d` milliseconds, a burst gets one
      token per whole second elapsed, at most the capacity. */
  lemma OneTokenPerSecond(last: int, d: nat, n: nat)
    requires n >= 1
    ensures Checks(Bucket(0, last), seq(n, _ => last + d)).1 == Min(n, Min(Capacity, d / RefillRate))
  {
    BurstAtOneInstant(Bucket(0, last), last + d, n);
  }

  /** Each time is at most 999 ms after the previous check. */
  ghost predicate CloselySpaced(last: int, times: seq<int>) {
    |times| == 0 ||
    (&& 0 <= times[0] - last < RefillRate
     && forall i :: 1 <= i < |times| ==> 0 <= times[i] - times[i - 1] < RefillRate)
  }

  /** Checks spaced under a second apart never refill, however long the
      series lasts in total, because every check (refused ones included)
      resets the refill clock: at most the initial tokens are granted. */
  lemma {:induction false} CloseChecksNeverRefill(b: Bucket, times: seq<int>)
    requires 0 <= b.tokens <= Capacity
    requires CloselySpaced(b.lastRefill, times)
    ensures Checks(b, times).1 <= b.tokens
    decreases |times|
  {
    if |times| > 0 {
      var r := CheckLimit(b, times[0]);
      assert 0 <= times[0] - b.lastRefill < RefillRate;
      assert Refilled(b, times[0]) == b.tokens;
      assert r.bucket.tokens <= b.tokens && 0 <= r.bucket.tokens;
      assert r.Allowed? ==> r.bucket.tokens == b.tokens - 1;
      assert CloselySpaced(r.bucket.lastRefill, times[1..]) by {
        if |times| > 1 {
          assert times[1..][0] - times[0] == times[1] - times[0];
          forall i | 1 <= i < |times[1..]|
            ensures 0 <= times[1..][i] - times[1..][i - 1] < RefillRate
          {
            assert times[1..][i] == times[i + 1];
          }
        }
      }
      CloseChecksNeverRefill(r.bucket, times[1..]);
    }
  }
}

=== FILE: sanitize.dfy ===
/** `sanitizeInput`: drop `<...>` tags, drop every character outside
    `[\w\s.,!?-]`, then trim. `\w` is ASCII-only in a regular expression
    without the `u` flag, so accented letters are dropped. */
module Sanitizer {
  import opened Strings

  /** `\w` without the `u` flag: ASCII letters, digits and underscore. */
  predicate IsWordChar(c: char) {
    ('a' <= c <= 'z') || ('A' <= c <= 'Z') || ('0' <= c <= '9') || c == '_'
  }

  /** The class `[\w\s.,!?-]`. */
  predicate IsAllowed(c: char) {
    IsWordChar(c) || IsSpace(c) || c == '.' || c == ',' || c == '!' || c == '?' || c == '-'
  }

  /** The first position of `c` in `s`, or -1. */
  function CharIndex(s: string, c: char): (r: int)
    ensures -1 <= r < |s|
    ensures r == -1 <==> c !in s
    ensures 0 <= r ==> s[r] == c && c !in s[..r]
  {
    if |s| == 0 then -1
    else if s[0] == c then 0
    else
      var k := CharIndex(s[1..], c);
      assert k >= 0 ==> s[..k + 1] == [s[0]] + s[1..][..k];
      if k < 0 then -1 else k + 1
  }

  /** `replace(/<[^>]*>/g, '')`: scanning left to right, a `<` that has a
      `>` somewhere after it starts a match ending at the first such `>`;
      a `<` with no `>` after it is kept. */
  function StripTags(s: string): (r: string)
    ensures |r| <= |s|
    ensures '>' !in s ==> r == s
    ensures '<' !in s ==> r == s
    ensures NoTagLeft(r)
    decreases |s|
  {
    if |s| == 0 then ""
    else
      var j := CharIndex(s, '>');
      if s[0] == '<' && j > 0 then StripTags(s[j + 1..])
      else
        assert '>' !in s ==> '>' !in s[1..];
        assert '<' !in s ==> '<' !in s[1..];
        [s[0]] + StripTags(s[1..])
  }

  /** No `<` is followed, anywhere later, by a `>`: no tag remains. */
  ghost predicate NoTagLeft(r: string) {
    forall i, j :: 0 <= i < j < |r| && r[i] == '<' ==> r[j] != '>'
  }

  /** A leading tag `<...>` is removed whole, whatever follows it. */
  lemma StripsLeadingTag(t: string, rest: string)
    requires '>' !in t
    ensures StripTags("<" + t + ">" + rest) == StripTags(rest)
  {
    var s := "<" + t + ">" + rest;
    assert s[|t| + 1] == '>';
    assert s[..|t| + 1] == "<" + t;
    assert CharIndex(s, '>') == |t| + 1;
    assert s[|t| + 2..] == rest;
  }

  /** Splitting off the first character of a non-empty prefix. */
  lemma ConsAppend(x: string, r: string)
    requires |x| > 0
    ensures [x[0]] + (x[1..] + r) == x + r
  {
    assert x == [x[0]] + x[1..];
  }

  /** A first character other than `<` is kept. */
  lemma StripTagsPlainHead(s: string)
    requires |s| > 0 && s[0] != '<'
    ensures StripTags(s) == [s[0]] + StripTags(s[1..])
  {
  }

  /** Text without `<` in front of the rest is kept as it is: only tags
      are removed. */
  lemma {:induction false} StripsPlainPrefix(x: string, y: string)
    requires '<' !in x
    ensures StripTags(x + y) == x + StripTags(y)
    decreases |x|
  {
    if |x| == 0 {
      assert x + y == y;
    } else {
      var s := x + y;
      var rest := StripTags(y);
      assert s[0] == x[0];
      assert s[1..] == x[1..] + y;
      StripTagsPlainHead(s);
      assert '<' !in x[1..];
      StripsPlainPrefix(x[1..], y);
      assert StripTags(s[1..]) == x[1..] + rest;
      ConsAppend(x, rest);
    }
  }

  /** A tag in front of a clean word is dropped with its contents: for
      instance `<b>hi` sanitizes to `hi`, not `bhi`. */
  lemma SanitizeDropsTag(t: string, word: string)
    requires '>' !in t && AllAllowed(word) && Trimmed(word)
    ensures Sanitize("<" + t + ">" + word) == word
  {
    StripsLeadingTag(t, word);
    SanitizeFixesClean(word);
  }

  /** `replace(/[^\w\s.,!?-]/g, '')`: keep exactly the allowed characters,
      in order. */
  function KeepAllowed(s: string): (r: string)
    ensures |r| <= |s|
    ensures forall i :: 0 <= i < |r| ==> IsAllowed(r[i])
    ensures (forall i :: 0 <= i < |s| ==> IsAllowed(s[i])) ==> r == s
    decreases |s|
  {
    if |s| == 0 then ""
    else
      assert s == [s[0]] + s[1..];
      (if IsAllowed(s[0]) then [s[0]] else []) + KeepAllowed(s[1..])
  }

  /** Together with the one-character case, this pins the character pass
      down as an order-preserving filter. */
  lemma {:induction false} KeepAllowedConcat(a: string, b: string)
    ensures KeepAllowed(a + b) == KeepAllowed(a) + KeepAllowed(b)
    decreases |a|
  {
    if |a| > 0 {
      assert (a + b)[1..] == a[1..] + b;
      KeepAllowedConcat(a[1..], b);
    } else {
      assert a + b == b;
    }
  }

  lemma KeepAllowedSingle(c: char)
    ensures KeepAllowed([c]) == if IsAllowed(c) then [c] else []
  {
  }

  /** `sanitizeInput`. */
  function Sanitize(s: string): (r: string)
    ensures forall i :: 0 <= i < |r| ==> IsAllowed(r[i])
    ensures Trimmed(r)
    ensures |r| <= |s|
  {
    Trim(KeepAllowed(StripTags(s)))
  }

  /** The output of a trim keeps only characters of its input. */
  lemma TrimKeepsCharacters(s: string, i: int)
    requires 0 <= i < |Trim(s)|
    ensures Trim(s)[i] in s
  {
    var r := Trim(s);
    var k :| TrimsAt(s, r, k);
    assert r[i] == s[k + i];
  }

  ghost predicate AllAllowed(s: string) {
    forall i :: 0 <= i < |s| ==> IsAllowed(s[i])
  }

  lemma NotAllowedAbsent(s: string, c: char)
    requires AllAllowed(s) && !IsAllowed(c)
    ensures c !in s
  {
  }

  /** Text made only of allowed characters, with no surrounding white
      space, is left as it is. */
  lemma SanitizeFixesClean(s: string)
    requires AllAllowed(s) && Trimmed(s)
    ensures Sanitize(s) == s
  {
    NotAllowedAbsent(s, '<');
    assert StripTags(s) == s;
    assert KeepAllowed(s) == s;
  }

  /** Sanitizing is idempotent. */
  lemma SanitizeIdempotent(s: string)
    ensures Sanitize(Sanitize(s)) == Sanitize(s)
  {
    SanitizeFixesClean(Sanitize(s));
  }

  /** No character outside the allowed class survives; in particular
      accented letters and angle brackets are dropped. */
  lemma DropsDisallowed(s: string, c: char)
    requires !IsAllowed(c)
    ensures c !in Sanitize(s)
  {
    NotAllowedAbsent(Sanitize(s), c);
  }
}

=== FILE: seqs.dfy ===
/** Sequence helpers with the semantics of the JavaScript array methods the
    source uses: `indexOf`, `findIndex`, `find` and `filter`. */
module Seqs {

  /** `Array.prototype.indexOf`: the first position of `x`, or -1. */
  function IndexOf<T(==)>(s: seq<T>, x: T): (r: int)
    ensures -1 <= r < |s|
    ensures r == -1 <==> x !in s
    ensures 0 <= r ==> s[r] == x && x !in s[..r]
  {
    if |s| == 0 then -1
    else if s[0] == x then 0
    else
      var k := IndexOf(s[1..], x);
      assert s[1..][..if k < 0 then 0 else k] == s[1..1 + if k < 0 then 0 else k];
      if k < 0 then -1 else k + 1
  }

  /** `Array.prototype.findIndex`: the first position satisfying `p`, or -1. */
  function FindIndex<T>(s: seq<T>, p: T -> bool): (r: int)
    ensures -1 <= r < |s|
    ensures r == -1 <==> forall i :: 0 <= i < |s| ==> !p(s[i])
    ensures 0 <= r ==> p(s[r]) && forall i :: 0 <= i < r ==> !p(s[i])
  {
    if |s| == 0 then -1
    else if p(s[0]) then 0
    else
      var k := FindIndex(s[1..], p);
      assert forall i :: 1 <= i < |s| ==> s[i] == s[1..][i - 1];
      if k < 0 then -1 else k + 1
  }

  /** `Array.prototype.filter`: the elements satisfying `p`, in order. */
  function Filter<T(!new)>(p: T -> bool, s: seq<T>): (r: seq<T>)
    ensures |r| <= |s|
    ensures forall i :: 0 <= i < |r| ==> p(r[i])
    ensures forall x :: multiset(r)[x] == if p(x) then multiset(s)[x] else 0
  {
    if |s| == 0 then []
    else
      assert s == [s[0]] + s[1..];
      (if p(s[0]) then [s[0]] else []) + Filter(p, s[1..])
  }

  /** Filtering distributes over concatenation, so it keeps the relative
      order of the elements it retains. */
  lemma {:induction false} FilterConcat<T(!new)>(p: T -> bool, a: seq<T>, b: seq<T>)
    ensures Filter(p, a + b) == Filter(p, a) + Filter(p, b)
    decreases |a|
  {
    if |a| == 0 {
      assert a + b == b;
    } else {
      assert (a + b)[1..] == a[1..] + b;
      FilterConcat(p, a[1..], b);
    }
  }

  /** Filtering with a predicate every element satisfies changes nothing. */
  lemma {:induction false} FilterAll<T(!new)>(p: T -> bool, s: seq<T>)
    requires forall i :: 0 <= i < |s| ==> p(s[i])
    ensures Filter(p, s) == s
    decreases |s|
  {
    if |s| > 0 {
      FilterAll(p, s[1..]);
    }
  }

  /** The first occurrence of an element is no later than any occurrence. */
  lemma {:induction false} IndexOfAtMost<T>(s: seq<T>, x: T, k: int)
    requires 0 <= k < |s| && s[k] == x
    ensures 0 <= IndexOf(s, x) <= k
    decreases k
  {
    if s[0] != x {
      IndexOfAtMost(s[1..], x, k - 1);
    }
  }

  /** No element occurs twice. */
  ghost predicate Distinct<T>(s: seq<T>) {
    forall i, j :: 0 <= i < j < |s| ==> s[i] != s[j]
  }

  /** In a sequence without repetitions, `IndexOf` finds the one position. */
  lemma IndexOfDistinct<T>(s: seq<T>, i: int)
    requires Distinct(s)
    requires 0 <= i < |s|
    ensures IndexOf(s, s[i]) == i
  {
  }
}

=== FILE: settings.dfy ===
/** The assistant configuration held for a session: its defaults and the
    partial-override merge `updateSettings`. */
module AISettings {
  import opened Wrappers
  import opened Types

  datatype ResponseLength = Concise | Balanced | Detailed

  datatype Settings = Settings(
    useTutoiement: bool,
    customInstructions: string,
    tonality: string,
    maxFollowUps: int,
    boldWords: bool,
    responseLength: ResponseLength,
    coachingSteps: map<CoachingStep, CoachingStepData>,
    stepOrder: seq<CoachingStep>)

  const DefaultInstructions: string :=
    "Tu es une IA conversationnelle attentive et bienveillante, conçue pour aider les utilisateurs à réfléchir sur leurs valeurs, leurs forces et leurs passions, afin de développer une déclaration de mission personnelle. Tu joues un rôle de coach empathique, qui accompagne la personne dans une introspection en profondeur de manière bienveillante et motivante.\n\nTon objectif est de favoriser une discussion fluide et naturelle qui aide l'utilisateur à découvrir ce qui le motive réellement, loin des idéaux abstraits."

  const DefaultTonality: string := "Empathique et encourageant"

  /** The settings a session starts with. */
  function Defaults(): (s: Settings)
    ensures s.useTutoiement && s.boldWords
    ensures s.maxFollowUps == 2 && s.responseLength == Balanced
    ensures s.tonality == DefaultTonality && s.customInstructions == DefaultInstructions
    ensures |s.coachingSteps| == 0 && |s.stepOrder| == 0
  {
    Settings(true, DefaultInstructions, DefaultTonality, 2, true, Balanced, map[], [])
  }

  /** A `Partial<AISettings>`: `None` marks a field the caller left out. */
  datatype SettingsPatch = SettingsPatch(
    useTutoiement: Option<bool>,
    customInstructions: Option<string>,
    tonality: Option<string>,
    maxFollowUps: Option<int>,
    boldWords: Option<bool>,
    responseLength: Option<ResponseLength>,
    coachingSteps: Option<map<CoachingStep, CoachingStepData>>,
    stepOrder: Option<seq<CoachingStep>>)

  const EmptyPatch := SettingsPatch(None, None, None, None, None, None, None, None)

  /** The patch that names every field of `s`, as the settings dialog's save
      button sends it. */
  function FullPatch(s: Settings): SettingsPatch {
    SettingsPatch(Some(s.useTutoiement), Some(s.customInstructions), Some(s.tonality),
                  Some(s.maxFollowUps), Some(s.boldWords), Some(s.responseLength),
                  Some(s.coachingSteps), Some(s.stepOrder))
  }

  /** `updateSettings`: `{ ...prev, ...patch }`. Fields present in the patch
      take its value, absent fields keep theirs, and nothing is validated. */
  function UpdateSettings(prev: Settings, patch: SettingsPatch): (r: Settings)
    ensures r.useTutoiement == patch.useTutoiement.GetOr(prev.useTutoiement)
    ensures r.customInstructions == patch.customInstructions.GetOr(prev.customInstructions)
    ensures r.tonality == patch.tonality.GetOr(prev.tonality)
    ensures r.maxFollowUps == patch.maxFollowUps.GetOr(prev.maxFollowUps)
    ensures r.boldWords == patch.boldWords.GetOr(prev.boldWords)
    ensures r.responseLength == patch.responseLength.GetOr(prev.responseLength)
    ensures r.coachingSteps == patch.coachingSteps.GetOr(prev.coachingSteps)
    ensures r.stepOrder == patch.stepOrder.GetOr(prev.stepOrder)
  {
    Settings(
      patch.useTutoiement.GetOr(prev.useTutoiement),
      patch.customInstructions.GetOr(prev.customInstructions),
      patch.tonality.GetOr(prev.tonality),
      patch.maxFollowUps.GetOr(prev.maxFollowUps),
      patch.boldWords.GetOr(prev.boldWords),
      patch.responseLength.GetOr(prev.responseLength),
      patch.coachingSteps.GetOr(prev.coachingSteps),
      patch.stepOrder.GetOr(prev.stepOrder))
  }

  /** Merging an empty patch changes nothing. */
  lemma EmptyPatchIsIdentity(s: Settings)
    ensures UpdateSettings(s, EmptyPatch) == s
  {
  }

  /** Merging the same patch twice is the same as merging it once. */
  lemma UpdateIdempotent(s: Settings, p: SettingsPatch)
    ensures UpdateSettings(UpdateSettings(s, p), p) == UpdateSettings(s, p)
  {
  }

  /** A patch naming every field replaces the settings wholesale. */
  lemma FullPatchReplaces(prev: Settings, next: Settings)
    ensures UpdateSettings(prev, FullPatch(next)) == next
  {
  }

  /** The merge accepts any follow-up count: the 0 to 4 range exists only
      in the dialog's drop-down. */
  lemma AnyFollowUpCountAccepted(s: Settings, n: int)
    ensures UpdateSettings(s, EmptyPatch.(maxFollowUps := Some(n))).maxFollowUps == n
    ensures UpdateSettings(s, EmptyPatch.(maxFollowUps := Some(n))) == s.(maxFollowUps := n)
  {
  }
}

=== FILE: stepeditor.dfy ===
/** The step-configuration edits of the settings dialog, as pure updates of
    the dialog's working copy of the settings. */
module StepEditor {
  import opened Types
  import opened AISettings
  import opened Strings
  import opened Seqs
  import Coaching

  datatype Direction = Up | Down

  /** Exchange two positions of a sequence. */
  function Swap<T>(s: seq<T>, i: int, j: int): (r: seq<T>)
    requires 0 <= i < |s| && 0 <= j < |s|
    ensures |r| == |s|
    ensures r[i] == s[j] && r[j] == s[i]
    ensures forall k :: 0 <= k < |s| && k != i && k != j ==> r[k] == s[k]
    ensures multiset(r) == multiset(s)
  {
    var r := s[i := s[j]][j := s[i]];
    assert multiset(s[i := s[j]]) == multiset(s) - multiset{s[i]} + multiset{s[j]};
    r
  }

  function Target(i: int, dir: Direction): int {
    if dir == Up then i - 1 else i + 1
  }

  /** `moveStep`: swap the step at `i` with its neighbour; a neighbour off
      either end leaves the settings as they are. The dialog only passes
      positions of listed steps. */
  function MoveStep(s: Settings, i: int, dir: Direction): (r: Settings)
    requires 0 <= i < |s.stepOrder|
    ensures !(0 <= Target(i, dir) < |s.stepOrder|) ==> r == s
    ensures 0 <= Target(i, dir) < |s.stepOrder| ==>
      && r == s.(stepOrder := r.stepOrder)
      && |r.stepOrder| == |s.stepOrder|
      && r.stepOrder[i] == s.stepOrder[Target(i, dir)]
      && r.stepOrder[Target(i, dir)] == s.stepOrder[i]
      && (forall k :: 0 <= k < |s.stepOrder| && k != i && k != Target(i, dir) ==> r.stepOrder[k] == s.stepOrder[k])
    ensures multiset(r.stepOrder) == multiset(s.stepOrder)
  {
    var j := Target(i, dir);
    if j < 0 || j >= |s.stepOrder| then s
    else s.(stepOrder := Swap(s.stepOrder, i, j))
  }

  /** Moving the same step the same way twice restores the order, and so
      does moving it back from where it landed. */
  lemma MoveStepUndo(s: Settings, i: int, dir: Direction)
    requires 0 <= i < |s.stepOrder|
    ensures MoveStep(MoveStep(s, i, dir), i, dir) == s
    ensures 0 <= Target(i, dir) < |s.stepOrder| ==>
      MoveStep(MoveStep(s, i, dir), Target(i, dir), if dir == Up then Down else Up) == s
  {
    var j := Target(i, dir);
    if 0 <= j < |s.stepOrder| {
      SwapTwice(s.stepOrder, i, j);
      assert Target(j, if dir == Up then Down else Up) == i;
    }
  }

  lemma SwapTwice<T>(s: seq<T>, i: int, j: int)
    requires 0 <= i < |s| && 0 <= j < |s|
    ensures Swap(Swap(s, i, j), i, j) == s
    ensures Swap(Swap(s, i, j), j, i) == s
  {
    var r := Swap(s, i, j);
    assert Swap(r, i, j) == s by {
      var t := Swap(r, i, j);
      assert forall k :: 0 <= k < |s| ==> t[k] == s[k];
    }
    assert Swap(r, j, i) == s by {
      var t := Swap(r, j, i);
      assert forall k :: 0 <= k < |s| ==> t[k] == s[k];
    }
  }

  /** `custom_step_<k>`. */
  function StepIdOf(k: nat): CoachingStep {
    "custom_step_" + NatToString(k)
  }

  lemma StepIdOfInjective(a: nat, b: nat)
    requires StepIdOf(a) == StepIdOf(b)
    ensures a == b
  {
    assert StepIdOf(a)[12..] == NatToString(a);
    assert StepIdOf(b)[12..] == NatToString(b);
    NatToStringInjective(a, b);
  }

  const BlankStep := CoachingStepData("", "", [""])

  /** The identifier `addNewStep` picks: numbered by the count of keys. */
  function NewStepId(s: Settings): CoachingStep {
    StepIdOf(|s.coachingSteps|)
  }

  /** `addNewStep` as written: store a blank step under `NewStepId` and
      append that identifier to the order. */
  function AddNewStep(s: Settings): (r: Settings)
    ensures r.coachingSteps == s.coachingSteps[NewStepId(s) := BlankStep]
    ensures r.stepOrder == s.stepOrder + [NewStepId(s)]
    ensures r == s.(coachingSteps := r.coachingSteps, stepOrder := r.stepOrder)
  {
    var id := NewStepId(s);
    s.(coachingSteps := s.coachingSteps[id := BlankStep], stepOrder := s.stepOrder + [id])
  }

  /** Every key is `custom_step_<k>` for some `k` below the number of keys,
      as when steps were only ever added. */
  ghost predicate DenselyNumbered(s: Settings) {
    forall key :: key in s.coachingSteps ==> exists k: nat :: k < |s.coachingSteps| && key == StepIdOf(k)
  }

  /** While the keys are densely numbered, the new identifier is fresh. */
  lemma NewStepIdFreshWhenDense(s: Settings)
    requires DenselyNumbered(s)
    ensures NewStepId(s) !in s.coachingSteps
  {
    if NewStepId(s) in s.coachingSteps {
      var k: nat :| k < |s.coachingSteps| && NewStepId(s) == StepIdOf(k);
      StepIdOfInjective(k, |s.coachingSteps|);
    }
  }

  lemma FirstTwoIdsDiffer()
    ensures StepIdOf(0) != StepIdOf(1)
  {
    assert StepIdOf(0)[12] == '0' && StepIdOf(1)[12] == '1';
  }

  lemma DeleteFirstOfTwo(s: Settings, d0: CoachingStepData, d1: CoachingStepData)
    requires s.coachingSteps == map[StepIdOf(0) := d0, StepIdOf(1) := d1]
    requires s.stepOrder == [StepIdOf(0), StepIdOf(1)]
    ensures DeleteStep(s, StepIdOf(0)).coachingSteps == map[StepIdOf(1) := d1]
    ensures DeleteStep(s, StepIdOf(0)).stepOrder == [StepIdOf(1)]
  {
    var a, b := StepIdOf(0), StepIdOf(1);
    FirstTwoIdsDiffer();
    assert [a, b] == [a] + [b];
    FilterConcat(k => k != a, [a], [b]);
  }

  /** After a deletion the count-based identifier can name a step that
      still exists: with steps 0 and 1, deleting step 0 and adding a step
      overwrites step 1 with a blank one and lists it twice. */
  lemma AddAfterDeleteOverwrites(s: Settings, d0: CoachingStepData, d1: CoachingStepData)
    requires s.coachingSteps == map[StepIdOf(0) := d0, StepIdOf(1) := d1]
    requires s.stepOrder == [StepIdOf(0), StepIdOf(1)]
    ensures AddNewStep(DeleteStep(s, StepIdOf(0))).coachingSteps == map[StepIdOf(1) := BlankStep]
    ensures AddNewStep(DeleteStep(s, StepIdOf(0))).stepOrder == [StepIdOf(1), StepIdOf(1)]
  {
    DeleteFirstOfTwo(s, d0, d1);
    var t := DeleteStep(s, StepIdOf(0));
    assert |t.coachingSteps| == 1;
  }

  /** The order that overwrite leaves behind lists `custom_step_1` twice,
      and a coaching session run on it never completes, whatever the user
      does: each advance from that step returns to it. */
  lemma OverwrittenOrderNeverCompletes(s: Settings, d0: CoachingStepData, d1: CoachingStepData,
                                       events: seq<Coaching.Event>)
    requires s.coachingSteps == map[StepIdOf(0) := d0, StepIdOf(1) := d1]
    requires s.stepOrder == [StepIdOf(0), StepIdOf(1)]
    ensures var order := AddNewStep(DeleteStep(s, StepIdOf(0))).stepOrder;
      !Coaching.Run(Coaching.Initial(order), order, events).progress.isComplete
  {
    AddAfterDeleteOverwrites(s, d0, d1);
    var order := [StepIdOf(1), StepIdOf(1)];
    assert order[1] in order[..1];
    assert order[0] != "" by {
      assert |StepIdOf(1)| > 0;
    }
    IndexOfAtMost(order, order[0], 0);
    Coaching.RepeatedStepNeverCompletes(order, 1, Coaching.Initial(order), events);
  }

  /** The default settings configure no step, so the first step added to
      them is `custom_step_0`. */
  lemma FirstAddOnDefaults()
    ensures AddNewStep(Defaults()).coachingSteps == map[StepIdOf(0) := BlankStep]
    ensures AddNewStep(Defaults()).stepOrder == [StepIdOf(0)]
  {
  }

  /** The numbered identifiers `custom_step_0` to `custom_step_<n-1>`. */
  ghost function NumberedIds(n: nat): (ids: set<CoachingStep>)
    ensures forall k: nat :: k < n ==> StepIdOf(k) in ids
    ensures forall id :: id in ids ==> exists k: nat :: k < n && id == StepIdOf(k)
  {
    if n == 0 then {} else NumberedIds(n - 1) + {StepIdOf(n - 1)}
  }

  lemma {:induction false} NumberedIdsCount(n: nat)
    ensures |NumberedIds(n)| == n
    decreases n
  {
    if n > 0 {
      NumberedIdsCount(n - 1);
      if StepIdOf(n - 1) in NumberedIds(n - 1) {
        var k: nat :| k < n - 1 && StepIdOf(n - 1) == StepIdOf(k);
        StepIdOfInjective(k, n - 1);
      }
    }
  }

  lemma {:induction false} SubsetCount<T>(a: set<T>, b: set<T>)
    requires a <= b
    ensures |a| <= |b|
    decreases |a|
  {
    if a != {} {
      var x :| x in a;
      SubsetCount(a - {x}, b - {x});
    }
  }

  /** Among the `n + 1` identifiers numbered 0 to `n` at most `n` are taken
      by `n` keys, so one of them is free. */
  lemma FreeIdExists(keys: set<CoachingStep>)
    ensures exists k: nat :: k <= |keys| && StepIdOf(k) !in keys
  {
    if forall k: nat :: k <= |keys| ==> StepIdOf(k) in keys {
      NumberedIdsCount(|keys| + 1);
      SubsetCount(NumberedIds(|keys| + 1), keys);
    }
  }

  /** The first numbered identifier from `k` on that no key uses. */
  function FirstFreeFrom(keys: set<CoachingStep>, k: nat): (id: CoachingStep)
    requires exists j: nat :: k <= j <= |keys| && StepIdOf(j) !in keys
    ensures id !in keys
    ensures exists j: nat :: k <= j <= |keys| && id == StepIdOf(j)
    decreases |keys| - k
  {
    if StepIdOf(k) !in keys then StepIdOf(k)
    else
      var j: nat :| k <= j <= |keys| && StepIdOf(j) !in keys;
      assert k < j;
      FirstFreeFrom(keys, k + 1)
  }

  /** The lowest numbered identifier no existing step uses. */
  function FreshStepId(s: Settings): (id: CoachingStep)
    ensures id !in s.coachingSteps
    ensures exists k: nat :: k <= |s.coachingSteps| && id == StepIdOf(k)
  {
    FreeIdExists(s.coachingSteps.Keys);
    FirstFreeFrom(s.coachingSteps.Keys, 0)
  }

  /** With the numbers from `k` up to `n - 1` taken and `n` free, the search
      from `k` stops at `n`. */
  lemma {:induction false} FirstFreeFromSkipsTaken(keys: set<CoachingStep>, k: nat, n: nat)
    requires k <= n <= |keys|
    requires forall j: nat :: k <= j < n ==> StepIdOf(j) in keys
    requires StepIdOf(n) !in keys
    ensures FirstFreeFrom(keys, k) == StepIdOf(n)
    decreases n - k
  {
    if k < n {
      FirstFreeFromSkipsTaken(keys, k + 1, n);
    }
  }

  /** Densely numbered keys are exactly `custom_step_0` to
      `custom_step_<n-1>`. */
  lemma DenseKeysAreNumbered(s: Settings)
    requires DenselyNumbered(s)
    ensures s.coachingSteps.Keys == NumberedIds(|s.coachingSteps|)
  {
    var n := |s.coachingSteps|;
    var keys, ids := s.coachingSteps.Keys, NumberedIds(n);
    assert keys <= ids by {
      forall key | key in keys ensures key in ids {
        var k: nat :| k < n && key == StepIdOf(k);
      }
    }
    NumberedIdsCount(n);
    if x :| x in ids && x !in keys {
      assert keys <= ids - {x};
      SubsetCount(keys, ids - {x});
      assert false;
    }
    assert ids <= keys;
  }

  /** While the keys are densely numbered, the fresh identifier is the one
      the dialog picks, so the correction changes nothing in that case. */
  lemma FreshStepIdAgreesWhenDense(s: Settings)
    requires DenselyNumbered(s)
    ensures FreshStepId(s) == NewStepId(s)
  {
    DenseKeysAreNumbered(s);
    NewStepIdFreshWhenDense(s);
    FreeIdExists(s.coachingSteps.Keys);
    FirstFreeFromSkipsTaken(s.coachingSteps.Keys, 0, |s.coachingSteps|);
  }

  /** `addNewStep` with a fresh identifier: exactly one new step is stored,
      every existing step is kept, and the order gains one new entry. */
  function AddNewStepFresh(s: Settings): (r: Settings)
    ensures var id := FreshStepId(s);
      && id !in s.coachingSteps
      && r.coachingSteps.Keys == s.coachingSteps.Keys + {id}
      && r.coachingSteps[id] == BlankStep
      && (forall key :: key in s.coachingSteps ==> r.coachingSteps[key] == s.coachingSteps[key])
      && r.stepOrder == s.stepOrder + [id]
    ensures r == s.(coachingSteps := r.coachingSteps, stepOrder := r.stepOrder)
  {
    var id := FreshStepId(s);
    s.(coachingSteps := s.coachingSteps[id := BlankStep], stepOrder := s.stepOrder + [id])
  }

  /** Where the keys are densely numbered, the corrected edit is the
      dialog's own. */
  lemma AddNewStepFreshAgreesWhenDense(s: Settings)
    requires DenselyNumbered(s)
    ensures AddNewStepFresh(s) == AddNewStep(s)
  {
    FreshStepIdAgreesWhenDense(s);
  }

  const NewQuestion: string := "Nouvelle question de suivi ?"

  /** `addQuestionToStep`: append a follow-up question unless the step is
      missing or already holds the main question plus `maxFollowUps`
      follow-ups. */
  function AddQuestionToStep(s: Settings, key: CoachingStep): (r: Settings)
    ensures key !in s.coachingSteps || |s.coachingSteps[key].questions| >= s.maxFollowUps + 1 ==> r == s
    ensures key in s.coachingSteps && |s.coachingSteps[key].questions| < s.maxFollowUps + 1 ==>
      && r == s.(coachingSteps := r.coachingSteps)
      && r.coachingSteps == s.coachingSteps[key := s.coachingSteps[key].(questions := s.coachingSteps[key].questions + [NewQuestion])]
    ensures key in s.coachingSteps && |s.coachingSteps[key].questions| <= s.maxFollowUps + 1 ==>
      |r.coachingSteps[key].questions| <= s.maxFollowUps + 1
  {
    if key !in s.coachingSteps then s
    else
      var step := s.coachingSteps[key];
      if |step.questions| >= s.maxFollowUps + 1 then s
      else s.(coachingSteps := s.coachingSteps[key := step.(questions := step.questions + [NewQuestion])])
  }

  /** `questions.filter((_, index) => index !== i)`. */
  function RemoveAt<T>(qs: seq<T>, i: int): (r: seq<T>)
    ensures !(0 <= i < |qs|) ==> r == qs
    ensures 0 <= i < |qs| ==>
      && |r| == |qs| - 1
      && (forall k :: 0 <= k < i ==> r[k] == qs[k])
      && (forall k :: i <= k < |r| ==> r[k] == qs[k + 1])
  {
    if 0 <= i < |qs| then qs[..i] + qs[i + 1..] else qs
  }

  /** `removeQuestionFromStep`: drop question `i` unless the step is missing
      or has a single question, so a step always keeps one. */
  function RemoveQuestionFromStep(s: Settings, key: CoachingStep, i: int): (r: Settings)
    ensures key !in s.coachingSteps || |s.coachingSteps[key].questions| <= 1 ==> r == s
    ensures key in s.coachingSteps && |s.coachingSteps[key].questions| > 1 ==>
      && r == s.(coachingSteps := r.coachingSteps)
      && r.coachingSteps == s.coachingSteps[key := s.coachingSteps[key].(questions := RemoveAt(s.coachingSteps[key].questions, i))]
    ensures key in s.coachingSteps && |s.coachingSteps[key].questions| >= 1 ==>
      |r.coachingSteps[key].questions| >= 1
  {
    if key !in s.coachingSteps then s
    else
      var step := s.coachingSteps[key];
      if |step.questions| <= 1 then s
      else s.(coachingSteps := s.coachingSteps[key := step.(questions := RemoveAt(step.questions, i))])
  }

  /** Question edits touch only the questions of the targeted step: every
      other step, the targeted step's title and description, and the order
      are unchanged. */
  lemma QuestionEditsAreLocal(s: Settings, key: CoachingStep, i: int)
    ensures var r := AddQuestionToStep(s, key);
      && r.stepOrder == s.stepOrder && r.coachingSteps.Keys == s.coachingSteps.Keys
      && (forall k :: k in s.coachingSteps && k != key ==> r.coachingSteps[k] == s.coachingSteps[k])
      && (key in s.coachingSteps ==> r.coachingSteps[key] == s.coachingSteps[key].(questions := r.coachingSteps[key].questions))
    ensures var r := RemoveQuestionFromStep(s, key, i);
      && r.stepOrder == s.stepOrder && r.coachingSteps.Keys == s.coachingSteps.Keys
      && (forall k :: k in s.coachingSteps && k != key ==> r.coachingSteps[k] == s.coachingSteps[k])
      && (key in s.coachingSteps ==> r.coachingSteps[key] == s.coachingSteps[key].(questions := r.coachingSteps[key].questions))
  {
  }

  /** `deleteStep`: remove the key from the step map and every occurrence
      from the order. */
  function DeleteStep(s: Settings, key: CoachingStep): (r: Settings)
    ensures r.coachingSteps.Keys == s.coachingSteps.Keys - {key}
    ensures forall k :: k in r.coachingSteps ==> r.coachingSteps[k] == s.coachingSteps[k]
    ensures key !in r.stepOrder
    ensures forall x :: multiset(r.stepOrder)[x] == if x == key then 0 else multiset(s.stepOrder)[x]
    ensures r == s.(coachingSteps := r.coachingSteps, stepOrder := r.stepOrder)
  {
    var order := Filter(k => k != key, s.stepOrder);
    s.(coachingSteps := s.coachingSteps - {key}, stepOrder := order)
  }

  /** Deleting keeps the remaining steps in their relative order: it
      distributes over any split of the order. */
  lemma DeleteStepKeepsOrder(s: Settings, key: CoachingStep, a: seq<CoachingStep>, b: seq<CoachingStep>)
    requires s.stepOrder == a + b
    ensures DeleteStep(s, key).stepOrder == DeleteStep(s.(stepOrder := a), key).stepOrder + DeleteStep(s.(stepOrder := b), key).stepOrder
  {
    FilterConcat(k => k != key, a, b);
  }
}

=== FILE: strings.dfy ===
/** The JavaScript string built-ins the source relies on, written out:
    the `\s` character class and `String.prototype.trim`, substring search
    (`indexOf`, `includes`, `startsWith`), `replace` with a string pattern,
    `toLowerCase` and `Number.prototype.toString`. */
module Strings {

  /** A character of the ECMAScript WhiteSpace or LineTerminator classes:
      what `\s` matches and what `trim` removes. */
  predicate IsSpace(c: char) {
    || c == '\t' || c == '\n' || c == '\U{000B}' || c == '\U{000C}' || c == '\r'
    || c == ' ' || c == '\U{00A0}' || c == '\U{1680}'
    || ('\U{2000}' <= c <= '\U{200A}')
    || c == '\U{2028}' || c == '\U{2029}' || c == '\U{202F}' || c == '\U{205F}'
    || c == '\U{3000}' || c == '\U{FEFF}'
  }

  ghost predicate AllSpace(s: string) {
    forall i :: 0 <= i < |s| ==> IsSpace(s[i])
  }

  /** Neither the first nor the last character is white space. */
  predicate Trimmed(s: string) {
    |s| == 0 || (!IsSpace(s[0]) && !IsSpace(s[|s| - 1]))
  }

  function TrimStart(s: string): (r: string)
    ensures |r| <= |s| && r == s[|s| - |r|..]
    ensures AllSpace(s[..|s| - |r|])
    ensures |r| > 0 ==> !IsSpace(r[0])
    decreases |s|
  {
    if |s| > 0 && IsSpace(s[0]) then
      var t := TrimStart(s[1..]);
      assert s[..|s| - |t|] == [s[0]] + s[1..][..|s| - 1 - |t|];
      t
    else s
  }

  function TrimEnd(s: string): (r: string)
    ensures |r| <= |s| && r == s[..|r|]
    ensures AllSpace(s[|r|..])
    ensures |r| > 0 ==> !IsSpace(r[|r| - 1])
    decreases |s|
  {
    if |s| > 0 && IsSpace(s[|s| - 1]) then
      var t := TrimEnd(s[..|s| - 1]);
      assert s[|t|..] == s[..|s| - 1][|t|..] + [s[|s| - 1]];
      t
    else s
  }

  /** `r` is `s` with a run of white space removed from each end. */
  ghost predicate TrimsTo(s: string, r: string) {
    exists k :: TrimsAt(s, r, k)
  }

  /** `r` is `s` with its first `k` characters, all white space, removed
      and a run of white space removed from the end. */
  ghost predicate TrimsAt(s: string, r: string, k: int) {
    0 <= k <= |s| - |r| && r == s[k..k + |r|] && AllSpace(s[..k]) && AllSpace(s[k + |r|..])
  }

  /** `String.prototype.trim`. */
  function Trim(s: string): (r: string)
    ensures |r| <= |s|
    ensures Trimmed(r)
    ensures TrimsTo(s, r)
    ensures Trimmed(s) ==> r == s
  {
    var a := TrimStart(s);
    var r := TrimEnd(a);
    TrimWitness(s, a, r);
    r
  }

  lemma TrimWitness(s: string, a: string, r: string)
    requires |a| <= |s| && a == s[|s| - |a|..] && AllSpace(s[..|s| - |a|])
    requires |r| <= |a| && r == a[..|r|] && AllSpace(a[|r|..])
    ensures TrimsTo(s, r)
  {
    var k := |s| - |a|;
    assert r == s[k..k + |r|];
    assert s[k + |r|..] == a[|r|..];
    assert TrimsAt(s, r, k);
  }

  /** `s` holds `m` starting at position `i`. */
  predicate OccursAt(s: string, m: string, i: int) {
    0 <= i && i + |m| <= |s| && s[i..i + |m|] == m
  }

  /** The first position at or after `from` where `m` occurs, or -1. */
  function IndexOfFrom(s: string, m: string, from: nat): (r: int)
    ensures r == -1 || (from <= r && OccursAt(s, m, r))
    ensures forall k :: from <= k && (r == -1 || k < r) ==> !OccursAt(s, m, k)
    decreases |s| - from
  {
    if from + |m| > |s| then -1
    else if s[from..from + |m|] == m then from
    else IndexOfFrom(s, m, from + 1)
  }

  /** `String.prototype.indexOf` with a string argument. */
  function IndexOfSub(s: string, m: string): (r: int)
    ensures r == -1 || OccursAt(s, m, r)
    ensures forall k :: 0 <= k && (r == -1 || k < r) ==> !OccursAt(s, m, k)
  {
    IndexOfFrom(s, m, 0)
  }

  /** `String.prototype.includes`. */
  predicate Contains(s: string, m: string) {
    IndexOfSub(s, m) >= 0
  }

  /** `String.prototype.startsWith`. */
  predicate StartsWith(s: string, p: string) {
    |p| <= |s| && s[..|p|] == p
  }

  /** `String.prototype.replace` with a string pattern: only the first
      occurrence of `m` is replaced. */
  function ReplaceFirst(s: string, m: string, rep: string): (r: string)
    ensures !Contains(s, m) ==> r == s
    ensures Contains(s, m) ==>
      var i := IndexOfSub(s, m);
      r == s[..i] + rep + s[i + |m|..] && forall k :: 0 <= k < i ==> !OccursAt(s, m, k)
  {
    var i := IndexOfSub(s, m);
    if i < 0 then s else s[..i] + rep + s[i + |m|..]
  }

  /** `toLowerCase` on ASCII and Latin-1 capitals (U+00C0 to U+00DE except
      the multiplication sign) and on the two French capitals outside
      Latin-1, Œ and Ÿ; every other character is left as it is. */
  function LowerChar(c: char): (r: char)
    ensures ('A' <= c <= 'Z') ==> r as int == c as int + 32
    ensures ('\U{00C0}' <= c <= '\U{00DE}' && c != '\U{00D7}') ==> r as int == c as int + 32
    ensures c == '\U{0152}' ==> r == '\U{0153}'
    ensures c == '\U{0178}' ==> r == '\U{00FF}'
    ensures (&& !('A' <= c <= 'Z') && !('\U{00C0}' <= c <= '\U{00DE}' && c != '\U{00D7}')
             && c != '\U{0152}' && c != '\U{0178}') ==> r == c
  {
    if 'A' <= c <= 'Z' || ('\U{00C0}' <= c <= '\U{00DE}' && c != '\U{00D7}') then
      (c as int + 32) as char
    else if c == '\U{0152}' then '\U{0153}'
    else if c == '\U{0178}' then '\U{00FF}'
    else c
  }

  function ToLower(s: string): (r: string)
    ensures |r| == |s|
    ensures forall i :: 0 <= i < |s| ==> r[i] == LowerChar(s[i])
  {
    seq(|s|, i requires 0 <= i < |s| => LowerChar(s[i]))
  }

  function DigitChar(d: nat): (c: char)
    requires d < 10
    ensures '0' <= c <= '9'
  {
    (d + '0' as int) as char
  }

  /** The decimal numeral of `n`, as `Number.prototype.toString` writes it. */
  function NatToString(n: nat): (r: string)
    ensures |r| >= 1
    ensures |r| == 1 <==> n < 10
    ensures forall i :: 0 <= i < |r| ==> '0' <= r[i] <= '9'
    decreases n
  {
    if n < 10 then [DigitChar(n)] else NatToString(n / 10) + [DigitChar(n % 10)]
  }

  /** Different numbers have different numerals. */
  lemma {:induction false} NatToStringInjective(a: nat, b: nat)
    requires NatToString(a) == NatToString(b)
    ensures a == b
    decreases a
  {
    if a >= 10 {
      var sa, sb := NatToString(a), NatToString(b);
      assert b >= 10;
      assert sa[..|sa| - 1] == NatToString(a / 10);
      assert sb[..|sb| - 1] == NatToString(b / 10);
      assert DigitChar(a % 10) == sa[|sa| - 1] == sb[|sb| - 1] == DigitChar(b % 10);
      NatToStringInjective(a / 10, b / 10);
    }
  }
}

=== FILE: transcript.dfy ===
/** `cleanTranscript`: collapse runs of equal consecutive lines (counting
    the lines dropped), run the regular-expression cleanup passes, trim the
    result and report statistics. The cleanup passes are given as a
    parameter: they return the rewritten text and the number of matches. */
module TranscriptProcessor {
  import opened Strings

  /** `text.split('\n')`: always at least one piece, `""` giving `[""]`. */
  function Split(s: string): (lines: seq<string>)
    ensures |lines| >= 1
    ensures forall i :: 0 <= i < |lines| ==> '\n' !in lines[i]
    decreases |s|
  {
    if |s| == 0 then [""]
    else
      var rest := Split(s[1..]);
      if s[0] == '\n' then [""] + rest
      else [[s[0]] + rest[0]] + rest[1..]
  }

  /** `lines.join('\n')`. */
  function Join(lines: seq<string>): string
    requires |lines| >= 1
    decreases |lines|
  {
    if |lines| == 1 then lines[0] else lines[0] + "\n" + Join(lines[1..])
  }

  /** Joining the pieces of a split gives the text back. */
  lemma {:induction false} JoinSplit(s: string)
    ensures Join(Split(s)) == s
    decreases |s|
  {
    if |s| > 0 {
      var rest := Split(s[1..]);
      JoinSplit(s[1..]);
      if s[0] == '\n' {
        assert Split(s)[1..] == rest;
      } else {
        assert Split(s)[1..] == rest[1..];
        if |rest| > 1 {
          assert rest[1..] == Split(s)[1..];
          assert Join(rest) == rest[0] + "\n" + Join(rest[1..]);
        }
      }
    }
  }

  lemma {:induction false} SplitLine(a: string)
    requires '\n' !in a
    ensures Split(a) == [a]
    decreases |a|
  {
    if |a| > 0 {
      SplitLine(a[1..]);
      assert [a[0]] + a[1..] == a;
    }
  }

  lemma {:induction false} SplitLineThenRest(a: string, rest: string)
    requires '\n' !in a
    ensures Split(a + "\n" + rest) == [a] + Split(rest)
    decreases |a|
  {
    if |a| == 0 {
      assert a + "\n" + rest == "\n" + rest;
      assert ("\n" + rest)[1..] == rest;
    } else {
      assert (a + "\n" + rest)[1..] == a[1..] + "\n" + rest;
      SplitLineThenRest(a[1..], rest);
      assert [a[0]] + a[1..] == a;
    }
  }

  /** Splitting a join of newline-free lines gives the lines back. */
  lemma {:induction false} SplitJoin(lines: seq<string>)
    requires |lines| >= 1
    requires forall i :: 0 <= i < |lines| ==> '\n' !in lines[i]
    ensures Split(Join(lines)) == lines
    decreases |lines|
  {
    if |lines| == 1 {
      SplitLine(lines[0]);
    } else {
      SplitJoin(lines[1..]);
      SplitLineThenRest(lines[0], Join(lines[1..]));
    }
  }

  /** The left fold of the source: a line is kept unless it equals the last
      line kept so far. */
  function Dedup(lines: seq<string>): (kept: seq<string>)
    ensures |kept| <= |lines|
    decreases |lines|
  {
    if |lines| == 0 then []
    else
      var acc := Dedup(lines[..|lines| - 1]);
      var current := lines[|lines| - 1];
      if |acc| > 0 && acc[|acc| - 1] == current then acc else acc + [current]
  }

  /** The number of positions where a line equals the one before it. */
  function AdjacentRepeats(lines: seq<string>): nat
    decreases |lines|
  {
    if |lines| <= 1 then 0
    else
      AdjacentRepeats(lines[..|lines| - 1]) + if lines[|lines| - 1] == lines[|lines| - 2] then 1 else 0
  }

  ghost predicate NoAdjacentRepeats(lines: seq<string>) {
    forall i :: 1 <= i < |lines| ==> lines[i] != lines[i - 1]
  }

  /** The last line kept is always the last input line, and the fold drops
      exactly the lines equal to their predecessor. */
  lemma {:induction false} DedupLast(lines: seq<string>)
    ensures |lines| > 0 ==> |Dedup(lines)| > 0 && Dedup(lines)[|Dedup(lines)| - 1] == lines[|lines| - 1]
    ensures |Dedup(lines)| + AdjacentRepeats(lines) == |lines|
    decreases |lines|
  {
    if |lines| > 0 {
      var init := lines[..|lines| - 1];
      DedupLast(init);
      if |init| > 0 {
        assert init[|init| - 1] == lines[|lines| - 2];
      }
    }
  }

  /** No two adjacent kept lines are equal. */
  lemma {:induction false} DedupHasNoAdjacentRepeats(lines: seq<string>)
    ensures NoAdjacentRepeats(Dedup(lines))
    decreases |lines|
  {
    if |lines| > 0 {
      DedupHasNoAdjacentRepeats(lines[..|lines| - 1]);
    }
  }

  /** Input without adjacent repeats comes back unchanged. */
  lemma {:induction false} DedupKeepsCleanInput(lines: seq<string>)
    requires NoAdjacentRepeats(lines)
    ensures Dedup(lines) == lines
    ensures AdjacentRepeats(lines) == 0
    decreases |lines|
  {
    if |lines| > 0 {
      var init := lines[..|lines| - 1];
      assert NoAdjacentRepeats(init) by {
        forall i | 1 <= i < |init| ensures init[i] != init[i - 1] {
          assert init[i] == lines[i] && init[i - 1] == lines[i - 1];
        }
      }
      DedupKeepsCleanInput(init);
      if |init| > 0 {
        assert init[|init| - 1] == lines[|lines| - 2] != lines[|lines| - 1];
      }
      assert Dedup(lines) == init + [lines[|lines| - 1]];
      assert lines == init + [lines[|lines| - 1]];
    }
  }

  /** Deduplicating twice is the same as deduplicating once. */
  lemma DedupIdempotent(lines: seq<string>)
    ensures Dedup(Dedup(lines)) == Dedup(lines)
  {
    DedupHasNoAdjacentRepeats(lines);
    DedupKeepsCleanInput(Dedup(lines));
  }

  /** The positions of the input lines that the fold keeps. */
  function KeptIndices(lines: seq<string>): (idx: seq<nat>)
    decreases |lines|
  {
    if |lines| == 0 then []
    else
      var acc := Dedup(lines[..|lines| - 1]);
      var prior := KeptIndices(lines[..|lines| - 1]);
      if |acc| > 0 && acc[|acc| - 1] == lines[|lines| - 1] then prior else prior + [|lines| - 1]
  }

  /** `sub` is a subsequence of `s`, picked at the strictly increasing
      positions `idx`. */
  ghost predicate SubsequenceAt<T>(sub: seq<T>, s: seq<T>, idx: seq<nat>) {
    && |idx| == |sub|
    && (forall k :: 0 <= k < |idx| ==> idx[k] < |s| && sub[k] == s[idx[k]])
    && (forall k, l :: 0 <= k < l < |idx| ==> idx[k] < idx[l])
  }

  /** The kept lines are a subsequence of the input that starts with its
      first line. */
  lemma {:induction false} DedupIsSubsequence(lines: seq<string>)
    ensures SubsequenceAt(Dedup(lines), lines, KeptIndices(lines))
    ensures |lines| > 0 ==> KeptIndices(lines)[0] == 0
    decreases |lines|
  {
    if |lines| > 0 {
      var init := lines[..|lines| - 1];
      DedupIsSubsequence(init);
      var idx := KeptIndices(init);
      assert forall k :: 0 <= k < |idx| ==> idx[k] < |init| && init[idx[k]] == lines[idx[k]];
    }
  }

  /** Every kept line is one of the input lines. */
  lemma DedupLinesHaveNoNewline(lines: seq<string>)
    requires forall i :: 0 <= i < |lines| ==> '\n' !in lines[i]
    ensures forall i :: 0 <= i < |Dedup(lines)| ==> '\n' !in Dedup(lines)[i]
  {
    DedupIsSubsequence(lines);
    var idx := KeptIndices(lines);
    forall i | 0 <= i < |Dedup(lines)|
      ensures '\n' !in Dedup(lines)[i]
    {
      assert Dedup(lines)[i] == lines[idx[i]];
    }
  }

  /** The dedup pass on the whole text: the joined kept lines and the
      number of lines dropped. */
  function DedupText(text: string): (r: (string, nat))
    ensures Split(r.0) == Dedup(Split(text))
    ensures r.1 == AdjacentRepeats(Split(text))
    ensures r.1 == |Split(text)| - |Split(r.0)|
  {
    var lines := Split(text);
    var kept := Dedup(lines);
    DedupLast(lines);
    DedupLinesHaveNoNewline(lines);
    SplitJoin(kept);
    (Join(kept), |lines| - |kept|)
  }

  /** Text whose lines have no adjacent repeats passes the dedup pass
      unchanged with a count of 0. */
  lemma DedupTextKeepsCleanText(text: string)
    requires NoAdjacentRepeats(Split(text))
    ensures DedupText(text) == (text, 0)
  {
    DedupKeepsCleanInput(Split(text));
    JoinSplit(text);
  }

  /** The dedup pass is idempotent on the text. */
  lemma DedupTextIdempotent(text: string)
    ensures DedupText(DedupText(text).0).0 == DedupText(text).0
    ensures DedupText(DedupText(text).0).1 == 0
  {
    var lines := Split(text);
    var kept := Dedup(lines);
    DedupLinesHaveNoNewline(lines);
    SplitJoin(kept);
    DedupHasNoAdjacentRepeats(lines);
    DedupTextKeepsCleanText(Join(kept));
  }

  datatype Stats = Stats(originalLength: nat, cleanedLength: nat, duplicatesRemoved: nat, errorsFixed: nat)

  datatype CleanedTranscript = CleanedTranscript(content: string, stats: Stats)

  /** What the regular-expression passes produce: the rewritten text and
      the total number of matches. */
  datatype PassResult = PassResult(text: string, matches: nat)

  /** `cleanTranscript`. The lengths are measured on the input and on the
      text before the final trim. */
  function CleanTranscript(text: string, cleanupPasses: string -> PassResult): (r: CleanedTranscript)
    ensures r.stats.originalLength == |text|
    ensures r.stats.duplicatesRemoved == AdjacentRepeats(Split(text))
    ensures Trimmed(r.content)
    ensures |r.content| <= r.stats.cleanedLength
    ensures r.stats.cleanedLength == |cleanupPasses(DedupText(text).0).text|
    ensures TrimsTo(cleanupPasses(DedupText(text).0).text, r.content)
    ensures r.stats.errorsFixed == cleanupPasses(DedupText(text).0).matches
  {
    var (deduped, removed) := DedupText(text);
    var passed := cleanupPasses(deduped);
    CleanedTranscript(Trim(passed.text), Stats(|text|, |passed.text|, removed, passed.matches))
  }

  /** Already clean text (no adjacent repeated lines, nothing for the
      cleanup passes to rewrite, no surrounding white space) comes back
      unchanged with zero counts. */
  lemma CleanTextRoundTrip(text: string, cleanupPasses: string -> PassResult)
    requires NoAdjacentRepeats(Split(text)) && Trimmed(text)
    requires cleanupPasses(text) == PassResult(text, 0)
    ensures CleanTranscript(text, cleanupPasses) == CleanedTranscript(text, Stats(|text|, |text|, 0, 0))
  {
    DedupTextKeepsCleanText(text);
  }
}

=== FILE: types.dfy ===
/** The records shared by the chat interface, the history store and the
    coaching tracker. Dates are epoch milliseconds, supplied by the caller. */
module Types {
  import opened Wrappers

  /** A coaching step identifier, `custom_step_<n>` in practice. */
  type CoachingStep = string

  datatype Sender = User | Ai

  /** The three values a message's `feedback` field can hold; `Cleared` is
      the source's `'none'`. An absent field is `None`. */
  datatype FeedbackKind = Positive | Negative | Cleared

  datatype Message = Message(
    id: string,
    content: string,
    sender: Sender,
    timestamp: int,
    feedback: Option<FeedbackKind>,
    animationComplete: Option<bool>)

  datatype Transcript = Transcript(id: string, content: string, title: string, uploadDate: int)

  /** One step of the guided conversation; `questions[0]` is the main
      question, the rest are follow-ups. */
  datatype CoachingStepData = CoachingStepData(title: string, description: string, questions: seq<string>)

  datatype CoachingProgress = CoachingProgress(
    currentStep: CoachingStep,
    completedSteps: seq<CoachingStep>,
    isComplete: bool)

  datatype ChatSession = ChatSession(
    id: string,
    title: string,
    date: int,
    preview: string,
    messages: seq<Message>,
    transcript: Transcript,
    isFavorite: bool)
}

=== FILE: wrappers.dfy ===
/** The optional value used wherever the source has `undefined`, `null` or an
    absent key. */
module Wrappers {

  datatype Option<+T> = None | Some(value: T) {

    /** The wrapped value, or `default` when there is none. */
    function GetOr(default: T): T {
      match this
      case Some(v) => v
      case None => default
    }
  }
}
